=== FILE: README.md ===
# Platformer engine core, modelled in Dafny

This project models the sequential core of a small pygame platformer engine and its level editor:

- **Component registry** (`ComponentManager`, module `Components`). System components are kept one per
  class name. They sit in an insertion-ordered dict that `update` walks. Game components are kept in
  per-class lists that only grow. Lookup by class name is case-insensitive.
- **Input edge detector** (`InputState`, `Input`, `Keyboard`, `Mouse`, module `Input`). There is one
  state per configured mapping, with the flags `pressed`, `just_pressed` and `just_released`. Each frame
  resets the edge flags, then routes that frame's key and mouse events to the states bound to them.
- **Tile grid** (`WorldGrid`, module `WorldGrids`). This is a dict from `(x, y)` to the tile in that
  cell. It covers creation with a same-type guard, removal, plain and guarded lookup, lookup by linear
  tile id, neighbour lookup, draw order, and the demonstration layout built by `setup_grid`.
- **Tiles and blueprints** (modules `Tiles` and `GameComponents`). This covers the `TileType` tags,
  `TileBlueprint` and its factory `create_instance`, the `Direction` offset table, tile ids and the
  pixel position of a tile.

Two helper modules describe Python behaviour the engine relies on:

- `PyDict` models a dict that remembers first-insertion order. Assigning to a present key keeps its
  place, and `pop` removes the key.
- `PyBuiltins` models `str.lower`, floor `//` and `%`, and `int()` on a float.

`Wrappers` holds `Option` (Python's `None`) and `Result` (a raised exception).

Hardware events are an abstract sequence of `(kind, code, at)` values. `at` stands for the `time.time()`
reading taken when a press is handled. The blueprint catalogue is a partial map from key to blueprint.
A missing key makes `create_tile` fail with `BlueprintNotFound`, because in Python `None.create_instance`
raises.

Notes on the program's behaviour:

- A grid key is `(x, y)` only. The blueprint's `layer` neither separates tiles nor orders drawing.
  Tiles are drawn in dict insertion order (`RenderOrderIgnoresLayer`).
- `create_tile` has a "skip if same type" guard. As the code is written the guard never fires (see
  "## Findings"), so the model carries the comparison as a parameter (`TagComparison`).
- There is no save/load, because `WorldGridSerialiser.export` raises `NotImplementedError`.
- `get_tile_at` takes floats. `int()` truncates, so a coordinate in `(0, 1)` reaches row or column 0.
  Only whole-number coordinates are kept off row and column 0 (`GetTileAtReach`).
- Tile ids do not round-trip for cells with `y >= world_size`. The demonstration layout has such cells
  in a world of size 10: the tile at (10, 12) gets id 112, and id 112 decodes to (11, 2)
  (`TileIdCollidesOutsideWorld`).

## Model

| member | source | states |
|---|---|---|
| Components.NewManager | src/PyEng/components/components.py:24-26 | A fresh registry has no system and no game components. |
| Components.AddElement | src/PyEng/components/components.py:28-41 | A new system class name is stored and appended to the update order, and the game map is untouched. A repeated system name raises `ComponentDuplicateError` and stores nothing. A game component is appended to its own class's list, other lists and the system map unchanged, and cannot fail. A component of neither kind raises `ComponentNotFoundError`. |
| Components.UpdateOrder | src/PyEng/components/components.py:43-45 | `update` visits one system component per registered name, in registration order. The component visited at each place is the one stored under that name, and only system components are visited. |
| Components.UpdateVisitsEachOnce | src/PyEng/components/components.py:43-45 | Every registered system component is updated, and none twice. |
| Components.UpdateFollowsRegistration | src/PyEng/components/components.py:28-45 | After a series of registrations, the update order is the system components among them in registration order. Game components never enter it. |
| Components.GetByClass | src/PyEng/components/components.py:51-56 | The lookup succeeds exactly when the lower-cased query is a registered system name. It returns that component, and otherwise raises `ComponentNotFoundError`. |
| Components.GetByClassIgnoresCase | src/PyEng/components/components.py:51-56 | Queries that differ only in ASCII letter case give the same answer. |
| Components.AddThenGetByClass | src/PyEng/components/components.py:28-56 | A newly registered system component is found by any query that lower-cases to its class name. |
| Components.InitComponent | src/PyEng/components/components.py:62-66 | `class_name` is the lower-cased concrete class name. The component is registered only when `add` holds. |
| Components.InitSystemComponent | src/PyEng/components/components.py:86-87 | The `add` argument is ignored. A new class name is always registered, and a repeated one always raises `ComponentDuplicateError`. The registry changes exactly as `add_element` changes it, so the game map is untouched. |
| Components.InitGameComponent | src/PyEng/components/components.py:95-96 | The `add` argument is ignored. The component is always appended to its class's list. The registry changes exactly as `add_element` changes it, so the system map and the other classes' lists are untouched. |
| Components.InitSystemThenGetByClass | src/PyEng/components/components.py:51-66 | A system component built from class `C` is then returned by `get_by_class(C)`. |
| Components.SecondSystemInstanceFails | src/PyEng/components/components.py:30-37 | Constructing a second system component of the same class raises `ComponentDuplicateError`. |
| Components.GameComponentsAccumulate | src/PyEng/components/components.py:38-39 | Any number of game components of one class register without failure. Their list is the old list followed by them in creation order, and the system map is unchanged. |
| Input.NewState | src/PyEng/components/input.py:13-22 | A new state keeps its label, type and code, has every flag false, and `held_since` is 0. |
| Input.FrameReset | src/PyEng/components/input.py:24-26 | Both edge flags are cleared. `pressed`, `held_since` and the binding are unchanged. |
| Input.Press | src/PyEng/components/input.py:28-31 | `pressed` and `just_pressed` are set and the press time is recorded. `just_released` and the binding are unchanged. |
| Input.Unpress | src/PyEng/components/input.py:33-35 | `pressed` is cleared and `just_released` set. `just_pressed` and `held_since` are unchanged. |
| Input.PhaseTransitions | src/PyEng/components/input.py:24-35 | Idle → (press) JustPressed → (next frame) Held → (release) JustReleased → (next frame) Idle. This is the press/hold/release protocol the queries expose. |
| Input.BuildInputMap | src/PyEng/components/input.py:43-47 | The input map is a well-formed dict keyed by each state's own label, and no state starts pressed. |
| Input.InputMapLastWins | src/PyEng/components/input.py:43-47 | There is one state per distinct label. When a label repeats, the state comes from the last record with that label. |
| Input.Pressed | src/PyEng/components/input.py:52-53 | `pressed(k)` is true exactly for a mapped label whose state shows a press edge this frame. An unmapped label gives false instead of raising. |
| Input.Holding | src/PyEng/components/input.py:55-56 | `holding(k)` is true exactly for a mapped label whose state is down. An unmapped label gives false. |
| Input.Released | src/PyEng/components/input.py:58-59 | `released(k)` is true exactly for a mapped label whose state shows a release edge this frame. An unmapped label gives false. |
| Input.KeyboardUpdate | src/PyEng/components/input.py:79-94 | An ESCAPE key-down, and only that, exits. On key-down or key-up, exactly the BUTTON states bound to the key are pressed or released, and every other state and the key order are unchanged. Other events change nothing. |
| Input.MouseUpdate | src/PyEng/components/input.py:105-118 | On a mouse button down or up, exactly the MOUSE states bound to that button are pressed or released, and the rest are unchanged. Other events change nothing. |
| Input.HandleEvents | src/PyEng/components/input.py:65-71 | The event loop ends the program exactly when some event of the frame is QUIT or an ESCAPE key-down. Otherwise the map keeps its keys and order, and each state ends as its own replay of the events. |
| Input.Update | src/PyEng/components/input.py:61-71 | A frame ends the program exactly when it holds an exit event. Otherwise every mapping keeps its place, and its state is the replay of the frame's events on the state with its edges cleared. |
| Input.FrameIsPerStateReplay | src/PyEng/components/input.py:61-71 | A frame without exit events keeps the map's keys and order. Each state ends as its own replay of the frame's events. |
| Input.ReplayEdges | src/PyEng/components/input.py:24-35 | After the events of a frame, a press edge (or release edge) is set exactly when it was set before or a press (or release) reached the state. |
| Input.ReplayUnreached | src/PyEng/components/input.py:87-94 | Events bound to other keys or buttons leave a state unchanged. |
| Input.ReplayPressedFollowsLast | src/PyEng/components/input.py:28-35 | `pressed` after a frame is set by the last event that reached the state: down gives true, up gives false. |
| Input.FrameQueries | src/PyEng/components/input.py:52-71 | For a mapped key `k`, after `Input.update`, `pressed(k)` holds exactly when a press reached `k` this frame, and `released(k)` exactly when a release did. `holding(k)` follows the last such event, and is kept when no event reached `k`. |
| Input.QuietFrame | src/PyEng/components/input.py:61-63 | A frame with no events clears every edge and keeps every `pressed` flag. |
| Input.ExitEventEndsFrame | src/PyEng/components/input.py:61-83 | A QUIT event or an ESCAPE key-down anywhere in the frame ends the program. |
| GameComponents.TileTypeFromValue | src/PlatformerGame/repository/game_components.py:19-24 | Looking a tag up by value yields a tag with that value. |
| GameComponents.TileTypeValueRoundTrip | src/PlatformerGame/repository/game_components.py:19-24 | Each tag is recovered from its value, and no two tags share a value. |
| GameComponents.TileTypeValuesAreExactlyFive | src/PlatformerGame/repository/game_components.py:19-24 | The tag values are exactly grass, soil, path, selection and stone_path. |
| Tiles.Offset | src/PlatformerGame/scene/tile.py:15-30 | Every direction's offset has components in {-1, 0, 1} and is never (0, 0). |
| Tiles.OffsetTableIsEightNeighbourhood | src/PlatformerGame/scene/tile.py:15-23 | Distinct directions have distinct offsets, and every non-zero unit step is some direction's offset. |
| Tiles.NewTile | src/PlatformerGame/scene/tile.py:46-54 | A new tile is at the given position, made from the given blueprint, and shows image variant 0. |
| Tiles.CreateInstance | src/PlatformerGame/repository/game_components.py:70-76 | The factory makes a tile at `(x, y)` on variant 0. Its blueprint is the receiver, so it reports the blueprint's tile type. No grid changes. |
| Tiles.GetTileType | src/PlatformerGame/scene/tile.py:76-77 | A tile has no type of its own; it reports its blueprint's `tile_type`. |
| Tiles.TileId | src/PlatformerGame/scene/tile.py:70-71 | The id is `x * world_size + y` for every cell and world size. For a positive world size and `0 <= y < world_size`, floor division of the id by the world size gives x and the remainder gives y. |
| GameComponents.GetName | src/PlatformerGame/repository/game_components.py:48-49 | Returns the blueprint's `name` field, the name it was built with. |
| Tiles.PixelPos | src/PlatformerGame/scene/tile.py:79-86 | The blit position is the cell scaled by the tile size. The code scales y by the tile width, which with square 16×16 tiles equals scaling by the height. Dividing the blit position by the tile size gives back the cell with no remainder, so the position determines the cell. |
| WorldGrids.GetTile | src/PlatformerGame/scene/world_grid.py:75-76 | The lookup yields a tile exactly when the cell is occupied, and then it is the cell's occupant. A miss is `None`. |
| WorldGrids.AddTile | src/PlatformerGame/scene/world_grid.py:62-63 | A tile is stored under its own position and replaces an occupant in place. A new cell goes to the end of the order. |
| WorldGrids.CreateTileWith | src/PlatformerGame/scene/world_grid.py:45-54 | An occupant whose type matches the key is returned and nothing changes. Otherwise an unknown key fails with the grid unchanged. A known key stores a fresh tile from that blueprint at `(x, y)`: one tile remains there, other cells are unchanged, and the cell keeps its place in the order. |
| WorldGrids.CreateTileAsWritten | src/PlatformerGame/scene/world_grid.py:45-54 | As the code runs, the type check never matches. Creation succeeds exactly for a known key and always stores a fresh tile in that one cell. The grid stays well formed, with the same world size and catalogue. A replaced cell keeps its place in the drawing order, and a new cell is drawn last. |
| WorldGrids.CreateTile | src/PlatformerGame/scene/world_grid.py:45-54 | With the intended check, an occupant whose type value equals the key is returned unchanged. Otherwise, on an empty cell or one holding a tile of another type, an unknown key raises, and a known key stores a fresh tile of that blueprint. That cell is the only one that changes. A replaced cell keeps its place in the order, and a new cell goes last. |
| WorldGrids.RemoveTile | src/PlatformerGame/scene/world_grid.py:56-60 | The occupant is returned and removed, and all other cells are kept. The remaining cells keep their relative insertion order. A miss returns `None` and leaves the grid unchanged. |
| WorldGrids.RemoveKeepsDrawOrder | src/PlatformerGame/scene/world_grid.py:56-60 | Removing the cell at place `i` of the order leaves the cells before it followed by the cells after it. |
| WorldGrids.GetTileAt | src/PlatformerGame/scene/world_grid.py:69-73 | `None` unless both coordinates are positive. Otherwise the occupant of the truncated cell. |
| WorldGrids.GetTileAtReach | src/PlatformerGame/scene/world_grid.py:69-73 | With whole numbers this is `get_tile` on positive cells and never row or column 0. A fraction below 1 does reach column 0. |
| WorldGrids.DecodeId | src/PlatformerGame/scene/world_grid.py:65-67 | The floor-divided cell re-encodes to the id. |
| WorldGrids.GetTileFromId | src/PlatformerGame/scene/world_grid.py:65-67 | The lookup yields a tile exactly when the floor-decoded cell is occupied, and then it is that cell's occupant. A tile found from an id has that id. |
| WorldGrids.TileIdRoundTrip | src/PlatformerGame/scene/tile.py:70-71 | For `world_size > 0`, encoding then decoding gives back every cell with `0 <= y < world_size`. Every id decodes to such a cell, which re-encodes to the id. |
| WorldGrids.TileFoundById | src/PlatformerGame/scene/world_grid.py:65-67 | A stored tile with `0 <= y < world_size` is found again from its own id. |
| WorldGrids.TileIdCollidesOutsideWorld | src/PlatformerGame/scene/tile.py:70-71 | The layout's tile at (10, 12) and a tile at (11, 2) share id 112 in a world of size 10. |
| WorldGrids.Neighbour | src/PlatformerGame/scene/tile.py:64-68 | The neighbour in direction `d` is found exactly when the cell one `d`-offset away is occupied, and then it is that cell's occupant. |
| WorldGrids.Neighbours | src/PlatformerGame/scene/tile.py:56-62 | Four lookups, in order: the cell above (y - 1), to the right (x + 1), below (y + 1) and to the left (x - 1). |
| WorldGrids.NeighbourSymmetric | src/PlatformerGame/scene/tile.py:64-68 | If `u` is `t`'s neighbour in direction `d`, then `t` is `u`'s neighbour in the opposite direction. |
| WorldGrids.NeighboursAreOrthogonallyAdjacent | src/PlatformerGame/scene/tile.py:56-68 | Every tile found is one orthogonal step away. Every tile one orthogonal step away is found. The order of the four is stated by `Neighbours`. |
| WorldGrids.RenderOrder | src/PlatformerGame/scene/world_grid.py:87-90 | Tiles are drawn in the insertion order of their cells. |
| WorldGrids.RenderDrawsEachTileOnce | src/PlatformerGame/scene/world_grid.py:87-90 | Every stored tile is drawn, and none twice. |
| WorldGrids.RenderOrderIgnoresLayer | src/PlatformerGame/scene/world_grid.py:87-90 | A higher-layer tile created first is drawn before a lower-layer tile created after it. |
| WorldGrids.CreateThenRemoveRestores | src/PlatformerGame/scene/world_grid.py:45-60 | Creating on an empty cell and removing the tile again gives back the original grid, order included. |
| WorldGrids.LastWriteWins | src/PlatformerGame/scene/world_grid.py:45-63 | Two creations of different types at one cell leave exactly the second tile there. The occupied cells gain only that cell, and other cells keep their tiles. |
| WorldGrids.RemoveThenGet | src/PlatformerGame/scene/world_grid.py:56-60 | After removal the cell is empty, and every other cell reads as before. |
| WorldGrids.AsWrittenRebuildsSameTypeTile | src/PlatformerGame/scene/world_grid.py:45-54 | As written, asking for "grass" on a grass tile with variant 2 discards it for a fresh variant-0 tile. The intended check returns the occupant. |
| WorldGrids.SetupGridWith | src/PlatformerGame/scene/world_grid.py:39-43 | On any grid whose catalogue has "grass" and "dirt", `setup_grid` succeeds. The occupied cells are then the old ones plus the two lines, and every cell off the lines reads as before. |
| WorldGrids.NewWorldGrid | src/PlatformerGame/scene/world_grid.py:29-43 | Construction raises exactly when "grass" or "dirt" is missing from the catalogue. Otherwise the grid holds the 19 cells of the two lines, in call order without the second visit to (10, 10). Row 10 holds fresh grass tiles and column 10 fresh dirt tiles. (10, 10) holds grass unless the dirt blueprint's type counts as "grass" under the comparison. |
| WorldGrids.NewWorldGridAsWritten | src/PlatformerGame/scene/world_grid.py:37-54 | As the code is written, the shared cell (10, 10) always ends with the grass tile. |
| WorldGrids.SetupCollision | src/PlatformerGame/scene/world_grid.py:39-43 | The two lines of the layout share exactly one cell, (10, 10), addressed by calls 11 and 14. |
| WorldGrids.SetupAddresses | src/PlatformerGame/scene/world_grid.py:39-43 | The cells the layout addresses are exactly those of row 10 from x = 3 to 12 and column 10 from y = 5 to 14. |
| WorldGrids.CreateAllOccupies | src/PlatformerGame/scene/world_grid.py:45-54 | After a successful series of creations, the occupied cells are the old ones plus every cell a call addressed. |
| WorldGrids.CreateAllOnce | src/PlatformerGame/scene/world_grid.py:45-54 | A call on an empty cell that no other call of the series addresses leaves there a fresh tile of its blueprint. |
| WorldGrids.SetupSharedCell | src/PlatformerGame/scene/world_grid.py:39-54 | The shared cell (10, 10) ends with the grass tile created at `i = 7`, or keeps the dirt tile of `i = 5` when dirt counts as "grass". |

## Findings

| source | as written | input that shows it | evidently intended | confidence | as-written member | corrected member |
|---|---|---|---|---|---|---|
| src/PlatformerGame/scene/world_grid.py:49 | `existing_tile.get_tile_type() != tile_type` compares a `TileType` member with a `str`. A plain `Enum` member never equals a string, so the "keep the existing tile" branch never runs. | A grid whose cell (1, 1) holds a grass tile showing variant 2, then `create_tile(1, 1, 'grass')`. The tile is replaced by a new variant-0 tile. None of the modelled code sets a variant other than 0, so there the visible effect is a fresh `Tile` object replacing the old one. | Per the comment on line 48, keep the occupant when its type matches the requested one, by comparing the tag's value with the key. | high (not executed) | WorldGrids.CreateTileAsWritten | WorldGrids.CreateTile |

`WorldGrids.AsWrittenRebuildsSameTypeTile` exhibits the difference. `WorldGrids.NewWorldGrid` and `WorldGrids.SetupGridWith` take the comparison as a parameter: `EnumIdentity` is the code as written, and `EnumValue` is the corrected comparison.

Under the intended comparison, the grass tile wins the shared cell of the layout only if the "dirt" blueprint's type is not GRASS. `TileType` has no dirt tag, so the catalogue decides. As written, grass always wins (`WorldGrids.NewWorldGridAsWritten`).

## Left out

- Logging, crash reporting, the window, the debugger, file reading and physics are left out: they are side effects or depend on code not shown. This covers `error_manager.py`, `window.py`, `debugger.py`, `io.py` and `physics.py`.
- Saving and loading the grid is left out, because `WorldGridSerialiser.export` only raises `NotImplementedError`.
- Drawing is left out because it is pygame surface calls: `draw_grid`, the blits of `render`, `render_tile`, and image scaling in `Blueprint.__post_init__`. Only draw order and blit positions are modelled, and blueprints carry no images.
- `EntityBlueprint.create_instance` and `ItemBlueprint.create_instance` are left out; they have empty bodies.
- Configs are left out; they are constants (16×16 tiles, 1280×720 window, world size 10).
- Key mapping is left out. `api.KeyMapping` is not part of this model, so the input map is keyed by the label string.
- The Python singleton machinery (`__new__`) is left out. Its observable effect is that a second system component of a class is refused. Re-running `ComponentManager.__init__` is not modelled either.
- A tile's back-reference to its grid is not stored. The neighbour, id and lookup functions take the grid as an argument.
- `Position` as a game component is left out. Its dataclass constructor does not call `GameComponent.__init__`, so it never registers.
- `custom_id` is carried but never used.
- `get_system_components`, `get_position`, `__str__` and `__repr__` are left out. They only read or format state.
- Scene, game-session and front-end loops are left out. They are thin callers: `Scene`, `GameSession`, `main.py` and `level_editor.py`.
- `Mouse.update` polls the cursor position and stores `position` / `ui_x` / `ui_y`. This is not modelled, since it is hardware polling.
- SPACE key logging is left out, since it is a side effect. QUIT and ESCAPE are modelled only as "the frame ends the program" (`Exited`).
- Components.GetByClass: `str.lower` is modelled on ASCII letters only, not on the full Unicode case mapping Python uses.
- WorldGrids.GetTileAt: coordinates are exact reals. Float rounding, NaN (which Python sends to the `None` branch) and infinity (where `int()` raises `OverflowError`) are not modelled.
- WorldGrids.NewWorldGrid: the grid's own registration as a game component (world_grid.py:29, under the name "worldgrid") is not modelled, and the model returns only the grid. The registration cannot fail and touches only the game map: `Components.GameComponentsAccumulate` shows that appending game components always succeeds and leaves the system map, and so the update order, unchanged.
- WorldGrids.GetTileFromId: requires a non-zero world size, because Python raises `ZeroDivisionError` there.
- Input.Press: the press time is the event's own `at` value rather than a clock read inside `press`.

=== FILE: components.dfy ===
/**
 * The engine's component registry (`ComponentManager`) and the component taxonomy it stores.
 *
 * A component is either a system component (one instance per concrete class, updated every frame
 * by the registry), a game component (any number per class, kept in creation order) or, for an
 * object of the bare base class, neither. Components are identified by `class_name`, the
 * lower-cased name of their concrete class. The Python singleton machinery (`__new__`) is not
 * modelled; its observable effect is that constructing a second system component of the same
 * class registers the same name again, which `AddElement` rejects.
 */
module Components {
  import opened Wrappers
  import PyDict
  import PyBuiltins

  /** Which branch of the `isinstance` test in `add_element` a component takes. */
  datatype Scope = System | Game | Unscoped

  datatype Component = Component(scope: Scope, className: string, customId: Option<int>)

  /** The two exceptions the registry raises. */
  datatype ComponentError = ComponentDuplicateError | ComponentNotFoundError

  /**
   * `system` is `system_components_by_name`, whose insertion order drives `update`;
   * `game` is the `defaultdict(list)` `game_components_by_name`.
   */
  datatype Manager = Manager(system: PyDict.Dict<string, Component>, game: map<string, seq<Component>>)

  /** The registry keeps every system component under its own class name, each name once. */
  ghost predicate Valid(m: Manager) {
    && PyDict.Valid(m.system)
    && (forall n :: n in m.system.entries ==> m.system.entries[n].className == n)
    && (forall n :: n in m.system.entries ==> m.system.entries[n].scope == System)
  }

  /** `ComponentManager()`: both maps empty. */
  function NewManager(): (m: Manager)
    ensures Valid(m)
    ensures m.system.entries == map[] && m.game == map[]
  {
    Manager(PyDict.Empty(), map[])
  }

  /** `game_components_by_name[n]`: a missing name reads as the empty list. */
  function GameComponentsNamed(m: Manager, n: string): (r: seq<Component>)
    ensures n !in m.game ==> r == []
  {
    if n in m.game then m.game[n] else []
  }

  /** `add_element`: register a component under its class name. */
  function AddElement(m: Manager, c: Component): (r: Result<Manager, ComponentError>)
    requires Valid(m)
    ensures r.Success? ==> Valid(r.value)
    // a new system name is stored, appended to the update order; nothing else changes
    ensures c.scope == System && c.className !in m.system.entries ==>
      && r.Success?
      && r.value.system.entries == m.system.entries[c.className := c]
      && r.value.system.order == m.system.order + [c.className]
      && r.value.game == m.game
    // a repeated system name is refused and nothing is stored
    ensures c.scope == System && c.className in m.system.entries ==> r == Failure(ComponentDuplicateError)
    // a game component always goes to the end of its own class's list
    ensures c.scope == Game ==>
      && r.Success?
      && GameComponentsNamed(r.value, c.className) == GameComponentsNamed(m, c.className) + [c]
      && (forall n :: n != c.className ==> GameComponentsNamed(r.value, n) == GameComponentsNamed(m, n))
      && r.value.system == m.system
    ensures c.scope == Unscoped ==> r == Failure(ComponentNotFoundError)
  {
    match c.scope
    case System =>
      if c.className !in m.system.entries then
        Success(m.(system := PyDict.Set(m.system, c.className, c)))
      else
        Failure(ComponentDuplicateError)
    case Game =>
      Success(m.(game := m.game[c.className := GameComponentsNamed(m, c.className) + [c]]))
    case Unscoped =>
      Failure(ComponentNotFoundError)
  }

  /** `update`: the system components whose `update()` is invoked, in the order it is invoked. */
  function UpdateOrder(m: Manager): (r: seq<Component>)
    requires Valid(m)
    ensures |r| == |m.system.order|
    ensures forall i :: 0 <= i < |r| ==> r[i].scope == System
    ensures forall i :: 0 <= i < |r| ==> r[i].className == m.system.order[i]
    ensures forall i :: 0 <= i < |r| ==> r[i] == m.system.entries[m.system.order[i]]
  {
    PyDict.Values(m.system)
  }

  /** `get_by_class`: the system component registered under the lower-cased query. */
  function GetByClass(m: Manager, className: string): (r: Result<Component, ComponentError>)
    ensures PyBuiltins.Lower(className) in m.system.entries <==> r.Success?
    ensures r.Success? ==> r.value == m.system.entries[PyBuiltins.Lower(className)]
    ensures r.Failure? ==> r.error == ComponentNotFoundError
  {
    var key := PyBuiltins.Lower(className);
    if key !in m.system.entries then Failure(ComponentNotFoundError)
    else Success(m.system.entries[key])
  }

  /**
   * `Component.__init__(custom_id, add)` for an object of concrete class `concreteClass`: derive
   * `class_name`, then register when `add` holds. On success, the new component and the updated
   * registry.
   */
  function InitComponent(m: Manager, scope: Scope, concreteClass: string, customId: Option<int>, add: bool)
    : (r: Result<(Manager, Component), ComponentError>)
    requires Valid(m)
    ensures r.Success? ==> Valid(r.value.0)
    ensures r.Success? ==> r.value.1 == Component(scope, PyBuiltins.Lower(concreteClass), customId)
    ensures !add ==> r.Success? && r.value.0 == m
    // with `add` the component goes through `add_element`, failing exactly when that raises
    ensures add ==> (r.Success? <==> AddElement(m, Component(scope, PyBuiltins.Lower(concreteClass), customId)).Success?)
    ensures add && r.Success? ==> r.value.0 == AddElement(m, r.value.1).value
    ensures add && r.Failure? ==> r.error == AddElement(m, Component(scope, PyBuiltins.Lower(concreteClass), customId)).error
  {
    var c := Component(scope, PyBuiltins.Lower(concreteClass), customId);
    if add then
      match AddElement(m, c)
      case Success(m') => Success((m', c))
      case Failure(e) => Failure(e)
    else Success((m, c))
  }

  /** `SystemComponent.__init__(add)`: the `add` argument is not passed on, so it always registers. */
  function InitSystemComponent(m: Manager, concreteClass: string, add: bool)
    : (r: Result<(Manager, Component), ComponentError>)
    requires Valid(m)
    // registered whatever `add` says: a new class name is stored, a repeated one is refused
    ensures PyBuiltins.Lower(concreteClass) !in m.system.entries ==>
      && r.Success?
      && r.value.0.system.entries == m.system.entries[PyBuiltins.Lower(concreteClass) := r.value.1]
      && r.value.1 == Component(System, PyBuiltins.Lower(concreteClass), None)
    ensures PyBuiltins.Lower(concreteClass) in m.system.entries ==> r == Failure(ComponentDuplicateError)
    // the only change is `add_element`'s: nothing else in the registry moves
    ensures r.Success? ==> r.value.0 == AddElement(m, r.value.1).value
  {
    InitComponent(m, System, concreteClass, None, true)
  }

  /** `GameComponent.__init__(add)`: likewise always registers. */
  function InitGameComponent(m: Manager, concreteClass: string, add: bool)
    : (r: Result<(Manager, Component), ComponentError>)
    requires Valid(m)
    // registered whatever `add` says: appended to its class's list, which cannot fail
    ensures r.Success?
    ensures r.value.1 == Component(Game, PyBuiltins.Lower(concreteClass), None)
    ensures GameComponentsNamed(r.value.0, PyBuiltins.Lower(concreteClass))
      == GameComponentsNamed(m, PyBuiltins.Lower(concreteClass)) + [r.value.1]
    // the only change is `add_element`'s: nothing else in the registry moves
    ensures r.value.0 == AddElement(m, r.value.1).value
  {
    InitComponent(m, Game, concreteClass, None, true)
  }

  /** Registering components one after another, stopping at the first refusal. */
  function AddAll(m: Manager, cs: seq<Component>): (r: Result<Manager, ComponentError>)
    requires Valid(m)
    ensures r.Success? ==> Valid(r.value)
    decreases |cs|
  {
    if |cs| == 0 then Success(m)
    else
      match AddElement(m, cs[0])
      case Success(m') => AddAll(m', cs[1..])
      case Failure(e) => Failure(e)
  }

  /** The system components among `cs`, in their order. */
  function SystemOnes(cs: seq<Component>): seq<Component> {
    if |cs| == 0 then []
    else if cs[0].scope == System then [cs[0]] + SystemOnes(cs[1..])
    else SystemOnes(cs[1..])
  }

  /** The system components of a non-empty series: those of its head, then those of the rest. */
  lemma SystemOnesSplit(cs: seq<Component>)
    requires |cs| > 0
    ensures SystemOnes(cs) == SystemOnes([cs[0]]) + SystemOnes(cs[1..])
  {
    assert [cs[0]][1..] == [];
  }

  // ---------------------------------------------------------------------------------------------
  // Properties

  /** A registered system component is found by any spelling of its class name that lower-cases to it. */
  lemma AddThenGetByClass(m: Manager, c: Component, query: string)
    requires Valid(m)
    requires c.scope == System && c.className !in m.system.entries
    requires PyBuiltins.Lower(query) == c.className
    ensures AddElement(m, c).Success?
    ensures GetByClass(AddElement(m, c).value, query) == Success(c)
  {
  }

  /** Lookup is case-insensitive: queries equal up to ASCII case find the same component or both fail. */
  lemma GetByClassIgnoresCase(m: Manager, a: string, b: string)
    requires PyBuiltins.EqualIgnoringCase(a, b)
    ensures GetByClass(m, a) == GetByClass(m, b)
  {
    PyBuiltins.LowerEqualIffEqualIgnoringCase(a, b);
  }

  /** A system component built from class `C` is then found by `get_by_class(C)`. */
  lemma {:induction false} InitSystemThenGetByClass(m: Manager, concreteClass: string, add: bool)
    requires Valid(m)
    requires PyBuiltins.Lower(concreteClass) !in m.system.entries
    ensures InitSystemComponent(m, concreteClass, add).Success?
    ensures var (m', c) := InitSystemComponent(m, concreteClass, add).value;
      GetByClass(m', concreteClass) == Success(c)
  {
  }

  /** Constructing a second system component of the same class fails and registers nothing. */
  lemma {:induction false} SecondSystemInstanceFails(m: Manager, concreteClass: string, add1: bool, add2: bool)
    requires Valid(m)
    requires InitSystemComponent(m, concreteClass, add1).Success?
    ensures InitSystemComponent(InitSystemComponent(m, concreteClass, add1).value.0, concreteClass, add2)
      == Failure(ComponentDuplicateError)
  {
  }

  /** Game components of one class accumulate in creation order; no registration of them can fail. */
  lemma {:induction false} GameComponentsAccumulate(m: Manager, cs: seq<Component>, n: string)
    requires Valid(m)
    requires forall i :: 0 <= i < |cs| ==> cs[i].scope == Game && cs[i].className == n
    ensures AddAll(m, cs).Success?
    ensures GameComponentsNamed(AddAll(m, cs).value, n) == GameComponentsNamed(m, n) + cs
    ensures AddAll(m, cs).value.system == m.system
    decreases |cs|
  {
    if |cs| > 0 {
      var m' := AddElement(m, cs[0]).value;
      GameComponentsAccumulate(m', cs[1..], n);
      assert cs == [cs[0]] + cs[1..];
    }
  }

  /** `update` visits every registered system component, and each of them once. */
  lemma UpdateVisitsEachOnce(m: Manager)
    requires Valid(m)
    ensures forall n :: n in m.system.entries ==> m.system.entries[n] in UpdateOrder(m)
    ensures forall i, j :: 0 <= i < j < |UpdateOrder(m)| ==> UpdateOrder(m)[i] != UpdateOrder(m)[j]
  {
    var r := UpdateOrder(m);
    forall n | n in m.system.entries ensures m.system.entries[n] in r {
      var i :| 0 <= i < |m.system.order| && m.system.order[i] == n;
      assert r[i] == m.system.entries[n];
    }
  }

  /** One registration extends the update order by the component when it is a system one. */
  lemma UpdateOrderAfterAdd(m: Manager, c: Component)
    requires Valid(m)
    requires AddElement(m, c).Success?
    ensures UpdateOrder(AddElement(m, c).value) == UpdateOrder(m) + SystemOnes([c])
  {
    var m' := AddElement(m, c).value;
    if c.scope == System {
      var before, after := UpdateOrder(m), UpdateOrder(m');
      assert |after| == |before| + 1;
      forall i | 0 <= i < |after| ensures after[i] == (before + [c])[i] {
        if i < |before| {
          assert m'.system.order[i] == m.system.order[i];
          assert m.system.order[i] != c.className;
        }
      }
    }
  }

  /** Registering a non-empty series is registering its head, then the rest. */
  lemma AddAllUnfold(m: Manager, cs: seq<Component>)
    requires Valid(m) && |cs| > 0
    requires AddAll(m, cs).Success?
    ensures AddElement(m, cs[0]).Success?
    ensures AddAll(AddElement(m, cs[0]).value, cs[1..]) == AddAll(m, cs)
  {
  }

  /** One step of a successful series: the head registers, and `update` gains its system part. */
  lemma RegistrationStep(m: Manager, cs: seq<Component>)
    requires Valid(m) && |cs| > 0
    requires AddAll(m, cs).Success?
    ensures AddElement(m, cs[0]).Success?
    ensures AddAll(AddElement(m, cs[0]).value, cs[1..]) == AddAll(m, cs)
    ensures UpdateOrder(AddElement(m, cs[0]).value) == UpdateOrder(m) + SystemOnes([cs[0]])
    ensures SystemOnes(cs) == SystemOnes([cs[0]]) + SystemOnes(cs[1..])
  {
    AddAllUnfold(m, cs);
    UpdateOrderAfterAdd(m, cs[0]);
    SystemOnesSplit(cs);
  }

  /** The inductive step: the head's system part, then the rest's, after what was there. */
  lemma RegistrationCombine(m: Manager, cs: seq<Component>)
    requires Valid(m) && |cs| > 0
    requires AddAll(m, cs).Success? && AddElement(m, cs[0]).Success?
    requires UpdateOrder(AddAll(AddElement(m, cs[0]).value, cs[1..]).value)
      == UpdateOrder(AddElement(m, cs[0]).value) + SystemOnes(cs[1..])
    ensures UpdateOrder(AddAll(m, cs).value) == UpdateOrder(m) + SystemOnes(cs)
  {
    RegistrationStep(m, cs);
    var m' := AddElement(m, cs[0]).value;
    var before, head, rest := UpdateOrder(m), SystemOnes([cs[0]]), SystemOnes(cs[1..]);
    assert AddAll(m', cs[1..]).value == AddAll(m, cs).value;
    assert UpdateOrder(AddAll(m, cs).value) == (before + head) + rest;
    ConcatAssociates(before, head, rest);
  }

  /** Sequence concatenation associates. */
  lemma ConcatAssociates<T>(a: seq<T>, b: seq<T>, c: seq<T>)
    ensures (a + b) + c == a + (b + c)
  {
  }

  /**
   * A successful series of registrations makes `update` visit, after the components already
   * there, exactly the system components among them, in registration order, and no game component.
   */
  lemma {:induction false} UpdateFollowsRegistration(m: Manager, cs: seq<Component>)
    requires Valid(m)
    requires AddAll(m, cs).Success?
    ensures UpdateOrder(AddAll(m, cs).value) == UpdateOrder(m) + SystemOnes(cs)
    decreases |cs|
  {
    if |cs| > 0 {
      RegistrationStep(m, cs);
      UpdateFollowsRegistration(AddElement(m, cs[0]).value, cs[1..]);
      RegistrationCombine(m, cs);
    }
  }
}

=== FILE: game_components.dfy ===
/**
 * The game's blueprint catalogue entries: the `TileType` tags and the `TileBlueprint` template a
 * tile is manufactured from. A blueprint's images are pygame surfaces and are not modelled.
 */
module GameComponents {
  import opened Wrappers

  /** The `TileType` enum. */
  datatype TileType = Grass | Soil | Path | Selection | StonePath

  /** A tile type's `.value`. */
  function TileTypeValue(t: TileType): string {
    match t
    case Grass => "grass"
    case Soil => "soil"
    case Path => "path"
    case Selection => "selection"
    case StonePath => "stone_path"
  }

  /** `TileType(s)`: the member whose value is `s`; Python raises `ValueError` (here `None`) otherwise. */
  function TileTypeFromValue(s: string): (r: Option<TileType>)
    ensures r.Some? ==> TileTypeValue(r.value) == s
  {
    if s == "grass" then Some(Grass)
    else if s == "soil" then Some(Soil)
    else if s == "path" then Some(Path)
    else if s == "selection" then Some(Selection)
    else if s == "stone_path" then Some(StonePath)
    else None
  }

  /** Every tag is recovered from its value, and no two tags share a value. */
  lemma TileTypeValueRoundTrip(t: TileType, u: TileType)
    ensures TileTypeFromValue(TileTypeValue(t)) == Some(t)
    ensures t != u ==> TileTypeValue(t) != TileTypeValue(u)
  {
  }

  /** Exactly five strings name a tile type. */
  lemma TileTypeValuesAreExactlyFive(s: string)
    ensures TileTypeFromValue(s).Some? <==> s in {"grass", "soil", "path", "selection", "stone_path"}
  {
  }

  /**
   * A `TileBlueprint`: unique `name`, `group` tag, render `layer` and the `tileType` of the tiles it
   * makes.
   */
  datatype TileBlueprint = TileBlueprint(name: string, group: string, layer: int, tileType: TileType)

  /** `Blueprint.get_name`: the name the blueprint was built with. */
  function GetName(b: TileBlueprint): (r: string)
    ensures r == b.name
  {
    b.name
  }
}

=== FILE: input.dfy ===
/**
 * The engine's input system: one edge-detecting `InputState` per configured logical mapping,
 * reset at the start of every frame and then driven by that frame's hardware events, which the
 * keyboard and mouse handlers route to the states bound to the event's key or button.
 *
 * Hardware events are an abstract sequence of (kind, code) values; `at` on an event stands for
 * the clock reading (`time.time()`) taken when a press is handled.
 */
module Input {
  import PyDict

  /** `api.InputType`: which device a mapping is bound to. */
  datatype InputType = Button | Mouse

  /** One record of the input configuration file (`api.InputMappings`). */
  datatype InputMapping = InputMapping(mappingLabel: string, kind: InputType, inputName: string, inputId: int)

  datatype InputState = InputState(
    mappingLabel: string,
    kind: InputType,
    inputId: int,
    pressed: bool,
    justPressed: bool,
    justReleased: bool,
    heldSince: real)

  /** The event types the handlers look at; everything else is `OtherEvent`. */
  datatype EventKind = Quit | KeyDown | KeyUp | MouseButtonDown | MouseButtonUp | OtherEvent

  /** A hardware event: `code` is the key for keyboard events and the button for mouse events. */
  datatype Event = Event(kind: EventKind, code: int, at: real)

  /** pygame's key code for ESCAPE, which ends the program on key-down. */
  const EscapeKey: int := 27

  /** The input dict, keyed by the mapping's label. */
  type InputMap = PyDict.Dict<string, InputState>

  /** The result of one frame: the updated states, or the program exited (QUIT or ESCAPE). */
  datatype FrameOutcome = Running(states: InputMap) | Exited

  // ---------------------------------------------------------------------------------------------
  // One state

  /** `InputState(label, type, input_id)`: released, no edges, never held. */
  function NewState(mappingLabel: string, kind: InputType, inputId: int): (s: InputState)
    ensures s.mappingLabel == mappingLabel && s.kind == kind && s.inputId == inputId
    ensures !s.pressed && !s.justPressed && !s.justReleased && s.heldSince == 0.0
  {
    InputState(mappingLabel, kind, inputId, false, false, false, 0.0)
  }

  /** `InputState.update`: the start-of-frame reset of both edge flags. */
  function FrameReset(s: InputState): (r: InputState)
    ensures !r.justPressed && !r.justReleased
    ensures r.pressed == s.pressed && r.heldSince == s.heldSince
    ensures r.(justPressed := s.justPressed, justReleased := s.justReleased) == s
  {
    s.(justPressed := false, justReleased := false)
  }

  /** `InputState.press` at clock reading `now`. */
  function Press(s: InputState, now: real): (r: InputState)
    ensures r.pressed && r.justPressed && r.heldSince == now
    ensures r.justReleased == s.justReleased
    ensures r.(pressed := s.pressed, justPressed := s.justPressed, heldSince := s.heldSince) == s
  {
    s.(pressed := true, justPressed := true, heldSince := now)
  }

  /** `InputState.unpress`. */
  function Unpress(s: InputState): (r: InputState)
    ensures !r.pressed && r.justReleased
    ensures r.justPressed == s.justPressed && r.heldSince == s.heldSince
    ensures r.(pressed := s.pressed, justReleased := s.justReleased) == s
  {
    s.(pressed := false, justReleased := true)
  }

  // ---------------------------------------------------------------------------------------------
  // The four-phase view of one mapping: Idle -> JustPressed -> Held -> JustReleased -> Idle

  datatype Phase = Idle | JustPressed | Held | JustReleased

  /** The phase a state shows to a consumer that only calls `pressed`, `holding` and `released`. */
  function PhaseOf(s: InputState): Phase {
    if s.pressed && s.justPressed then JustPressed
    else if s.pressed then Held
    else if s.justReleased then JustReleased
    else Idle
  }

  /** A state with at most one edge flag set, and a just-press only while down. */
  ghost predicate Settled(s: InputState) {
    !(s.justPressed && s.justReleased) && (s.justPressed ==> s.pressed)
  }

  /**
   * The frame-by-frame life of one mapping when at most one event reaches it per frame: a press
   * from Idle shows one JustPressed frame, then Held; a release shows one JustReleased frame, then Idle.
   */
  lemma PhaseTransitions(s: InputState, now: real)
    requires Settled(s)
    ensures PhaseOf(s) == Idle ==> PhaseOf(Press(FrameReset(s), now)) == JustPressed
    ensures PhaseOf(s) == JustPressed ==> PhaseOf(FrameReset(s)) == Held
    ensures PhaseOf(s) == Held ==> PhaseOf(FrameReset(s)) == Held
    ensures PhaseOf(s) in {JustPressed, Held} ==> PhaseOf(Unpress(FrameReset(s))) == JustReleased
    ensures PhaseOf(s) == JustReleased ==> PhaseOf(FrameReset(s)) == Idle
    ensures PhaseOf(s) == Idle ==> PhaseOf(FrameReset(s)) == Idle
  {
  }

  // ---------------------------------------------------------------------------------------------
  // The input map

  /** The dict comprehension of `Input.__init__` over the configuration records, in file order. */
  function BuildInputMap(config: seq<InputMapping>): (r: InputMap)
    ensures PyDict.Valid(r)
    ensures forall k :: k in r.entries ==> r.entries[k].mappingLabel == k
    ensures forall k :: k in r.entries ==> !r.entries[k].pressed && !r.entries[k].justPressed
    decreases |config|
  {
    if |config| == 0 then PyDict.Empty()
    else
      var last := config[|config| - 1];
      PyDict.Set(BuildInputMap(config[..|config| - 1]), last.mappingLabel,
                 NewState(last.mappingLabel, last.kind, last.inputId))
  }

  /** `Input.pressed`: true on the frame the mapping went down; false for an unknown mapping. */
  function Pressed(m: InputMap, key: string): (r: bool)
    ensures r <==> key in m.entries && m.entries[key].justPressed
  {
    if key in m.entries then m.entries[key].justPressed else false
  }

  /** `Input.holding`: true on every frame the mapping is down; false for an unknown mapping. */
  function Holding(m: InputMap, key: string): (r: bool)
    ensures r <==> key in m.entries && m.entries[key].pressed
  {
    if key in m.entries then m.entries[key].pressed else false
  }

  /** `Input.released`: true on the frame the mapping went up; false for an unknown mapping. */
  function Released(m: InputMap, key: string): (r: bool)
    ensures r <==> key in m.entries && m.entries[key].justReleased
  {
    if key in m.entries then m.entries[key].justReleased else false
  }

  // ---------------------------------------------------------------------------------------------
  // Event routing

  /** Whether an event is a press or release routed to a state: same device and same code. */
  predicate Routes(e: Event, s: InputState) {
    && ((e.kind in {KeyDown, KeyUp} && s.kind == Button)
        || (e.kind in {MouseButtonDown, MouseButtonUp} && s.kind == Mouse))
    && e.code == s.inputId
  }

  predicate IsDownEvent(e: Event) {
    e.kind in {KeyDown, MouseButtonDown}
  }

  /** The effect of one event on one state under the matching loops of `Keyboard` and `Mouse`. */
  function ApplyEvent(s: InputState, e: Event): (r: InputState)
    ensures !Routes(e, s) ==> r == s
    ensures Routes(e, s) && IsDownEvent(e) ==> r == Press(s, e.at)
    ensures Routes(e, s) && !IsDownEvent(e) ==> r == Unpress(s)
  {
    if !Routes(e, s) then s
    else if IsDownEvent(e) then Press(s, e.at)
    else Unpress(s)
  }

  /** `Keyboard.update`: on ESCAPE key-down the program exits, else matching BUTTON states change. */
  function KeyboardUpdate(m: InputMap, e: Event): (r: FrameOutcome)
    ensures e.kind == KeyDown && e.code == EscapeKey <==> r.Exited?
    ensures r.Running? && e.kind in {KeyDown, KeyUp} ==>
      && r.states.order == m.order && r.states.entries.Keys == m.entries.Keys
      && forall k :: k in m.entries ==>
           if m.entries[k].kind == Button && m.entries[k].inputId == e.code
           then r.states.entries[k] == (if e.kind == KeyDown then Press(m.entries[k], e.at) else Unpress(m.entries[k]))
           else r.states.entries[k] == m.entries[k]
    ensures e.kind !in {KeyDown, KeyUp} ==> r == Running(m)
  {
    if e.kind == KeyDown && e.code == EscapeKey then Exited
    else if e.kind in {KeyDown, KeyUp} then Running(PyDict.MapValues(m, s => ApplyEvent(s, e)))
    else Running(m)
  }

  /** `Mouse.update`: matching MOUSE states change; the polled cursor position is not modelled. */
  function MouseUpdate(m: InputMap, e: Event): (r: InputMap)
    ensures e.kind in {MouseButtonDown, MouseButtonUp} ==>
      && r.order == m.order && r.entries.Keys == m.entries.Keys
      && forall k :: k in m.entries ==>
           if m.entries[k].kind == Mouse && m.entries[k].inputId == e.code
           then r.entries[k] == (if e.kind == MouseButtonDown then Press(m.entries[k], e.at) else Unpress(m.entries[k]))
           else r.entries[k] == m.entries[k]
    ensures e.kind !in {MouseButtonDown, MouseButtonUp} ==> r == m
  {
    if e.kind in {MouseButtonDown, MouseButtonUp} then PyDict.MapValues(m, s => ApplyEvent(s, e))
    else m
  }

  /** Whether an event ends the program. */
  predicate Exits(e: Event) {
    e.kind == Quit || (e.kind == KeyDown && e.code == EscapeKey)
  }

  /** Whether some event of the sequence ends the program. */
  predicate AnyExits(events: seq<Event>) {
    exists i :: 0 <= i < |events| && Exits(events[i])
  }

  /** A state's life through a sequence of events, one event at a time. */
  function Replay(s: InputState, events: seq<Event>): InputState
    decreases |events|
  {
    if |events| == 0 then s else Replay(ApplyEvent(s, events[0]), events[1..])
  }

  /**
   * The event loop of `Input.update`: QUIT exits, otherwise the keyboard then the mouse handler.
   * The loop exits exactly when some event of the frame is QUIT or an ESCAPE key-down; otherwise
   * the map keeps its keys and order and each state ends as its own replay of the events.
   */
  function HandleEvents(m: InputMap, events: seq<Event>): (r: FrameOutcome)
    ensures r.Exited? <==> AnyExits(events)
    ensures r.Running? ==> r.states.order == m.order && r.states.entries.Keys == m.entries.Keys
    ensures r.Running? ==> forall k :: k in m.entries ==> r.states.entries[k] == Replay(m.entries[k], events)
    decreases |events|
  {
    if |events| == 0 then Running(m)
    else
      var e := events[0];
      if e.kind == Quit then Exited
      else match KeyboardUpdate(m, e)
        case Exited => Exited
        case Running(m') =>
          HandleStep(m, events);
          HandleEvents(MouseUpdate(m', e), events[1..])
  }

  /** `Input.update`: reset every state's edges, then handle the frame's events in order. */
  function Update(m: InputMap, events: seq<Event>): (r: FrameOutcome)
    ensures r.Exited? <==> AnyExits(events)
    ensures r.Running? ==> r.states.order == m.order && r.states.entries.Keys == m.entries.Keys
    ensures r.Running? ==> forall k :: k in m.entries ==>
      r.states.entries[k] == Replay(FrameReset(m.entries[k]), events)
  {
    HandleEvents(PyDict.MapValues(m, FrameReset), events)
  }

  // ---------------------------------------------------------------------------------------------
  // Frame-level properties

  /** Handling one non-exiting event applies it to every state independently. */
  lemma HandleOneEvent(m: InputMap, e: Event)
    requires !Exits(e)
    ensures KeyboardUpdate(m, e).Running?
    ensures MouseUpdate(KeyboardUpdate(m, e).states, e) == PyDict.MapValues(m, s => ApplyEvent(s, e))
  {
    var k := KeyboardUpdate(m, e).states;
    var r := MouseUpdate(k, e);
    var want := PyDict.MapValues(m, s => ApplyEvent(s, e));
    assert r.entries == want.entries;
  }

  /**
   * One turn of the event loop on a non-exiting event: the event reaches every state, an exit
   * further on is an exit in the rest, and each state's replay continues from the event's effect.
   */
  lemma HandleStep(m: InputMap, events: seq<Event>)
    requires |events| > 0 && !Exits(events[0])
    ensures KeyboardUpdate(m, events[0]).Running?
    ensures MouseUpdate(KeyboardUpdate(m, events[0]).states, events[0]) == PyDict.MapValues(m, s => ApplyEvent(s, events[0]))
    ensures AnyExits(events) <==> AnyExits(events[1..])
    ensures forall k :: k in m.entries ==> Replay(m.entries[k], events) == Replay(ApplyEvent(m.entries[k], events[0]), events[1..])
  {
    HandleOneEvent(m, events[0]);
    if AnyExits(events) {
      var i :| 0 <= i < |events| && Exits(events[i]);
      assert Exits(events[1..][i - 1]);
    }
    if AnyExits(events[1..]) {
      var i :| 0 <= i < |events[1..]| && Exits(events[1..][i]);
      assert Exits(events[i + 1]);
    }
  }

  /**
   * A frame without exit events leaves the map's keys and order alone and turns each state into
   * its own replay of the frame's events, starting from the reset state.
   */
  lemma {:induction false} FrameIsPerStateReplay(m: InputMap, events: seq<Event>)
    requires forall i :: 0 <= i < |events| ==> !Exits(events[i])
    ensures HandleEvents(m, events).Running?
    ensures HandleEvents(m, events).states.order == m.order
    ensures HandleEvents(m, events).states.entries.Keys == m.entries.Keys
    ensures forall k :: k in m.entries ==> HandleEvents(m, events).states.entries[k] == Replay(m.entries[k], events)
    decreases |events|
  {
    if |events| > 0 {
      var e := events[0];
      HandleOneEvent(m, e);
      var m' := PyDict.MapValues(m, s => ApplyEvent(s, e));
      assert HandleEvents(m, events) == HandleEvents(m', events[1..]);
      FrameIsPerStateReplay(m', events[1..]);
    }
  }

  /** Whether some event of the sequence is a press (or a release) routed to the state. */
  ghost predicate SomeRouted(s: InputState, events: seq<Event>, down: bool) {
    exists i :: 0 <= i < |events| && Routes(events[i], s) && IsDownEvent(events[i]) == down
  }

  /** The edge flag for presses (`down`) or releases (`!down`). */
  function EdgeFlag(s: InputState, down: bool): bool {
    if down then s.justPressed else s.justReleased
  }

  /** Two states bound to the same device and code are reached by the same events. */
  predicate SameBinding(s: InputState, t: InputState) {
    s.kind == t.kind && s.inputId == t.inputId
  }

  lemma SomeRoutedUnfold(s: InputState, t: InputState, events: seq<Event>, down: bool)
    requires |events| > 0 && SameBinding(s, t)
    ensures SomeRouted(s, events, down) <==>
      (Routes(events[0], s) && IsDownEvent(events[0]) == down) || SomeRouted(t, events[1..], down)
  {
    if SomeRouted(t, events[1..], down) {
      var i :| 0 <= i < |events[1..]| && Routes(events[1..][i], t) && IsDownEvent(events[1..][i]) == down;
      assert events[i + 1] == events[1..][i];
    }
    if SomeRouted(s, events, down) && !(Routes(events[0], s) && IsDownEvent(events[0]) == down) {
      var i :| 0 <= i < |events| && Routes(events[i], s) && IsDownEvent(events[i]) == down;
      assert events[1..][i - 1] == events[i];
    }
  }

  /**
   * Edge detection, per state: after a replay, the press edge is set exactly when it was already
   * set or some press reached the state, and the release edge likewise for releases.
   */
  lemma {:induction false} ReplayEdges(s: InputState, events: seq<Event>, down: bool)
    ensures EdgeFlag(Replay(s, events), down) <==> EdgeFlag(s, down) || SomeRouted(s, events, down)
    decreases |events|
  {
    if |events| > 0 {
      var s' := ApplyEvent(s, events[0]);
      ReplayEdges(s', events[1..], down);
      SomeRoutedUnfold(s, s', events, down);
    }
  }

  /** Events that never reach a state leave it as it is. */
  lemma {:induction false} ReplayUnreached(s: InputState, events: seq<Event>)
    requires forall i :: 0 <= i < |events| ==> !Routes(events[i], s)
    ensures Replay(s, events) == s
    decreases |events|
  {
    if |events| > 0 {
      assert forall i :: 0 <= i < |events[1..]| ==> events[1..][i] == events[i + 1];
      ReplayUnreached(s, events[1..]);
    }
  }

  /** Whether `events[i]` is the last event that reaches `s`. */
  ghost predicate LastRouted(s: InputState, events: seq<Event>, i: int) {
    && 0 <= i < |events|
    && Routes(events[i], s)
    && forall j :: i < j < |events| ==> !Routes(events[j], s)
  }

  /** `pressed` after a replay follows the last event that reached the state. */
  lemma {:induction false} ReplayPressedFollowsLast(s: InputState, events: seq<Event>, i: int)
    requires LastRouted(s, events, i)
    ensures Replay(s, events).pressed == IsDownEvent(events[i])
    decreases |events|
  {
    var s' := ApplyEvent(s, events[0]);
    var rest := events[1..];
    if i == 0 {
      assert forall j :: 0 <= j < |rest| ==> rest[j] == events[j + 1];
      ReplayUnreached(s', rest);
    } else {
      assert rest[i - 1] == events[i];
      assert forall j :: i - 1 < j < |rest| ==> rest[j] == events[j + 1];
      assert LastRouted(s', rest, i - 1);
      ReplayPressedFollowsLast(s', rest, i - 1);
    }
  }

  /**
   * One frame of `Input.update`, as the consumer sees it: with no exit event, `pressed` for a
   * mapping is true exactly when a press reached it this frame, `released` exactly when a release
   * did, and an unreached mapping keeps `holding` and shows no edge.
   */
  lemma FrameQueries(m: InputMap, events: seq<Event>, key: string)
    requires forall i :: 0 <= i < |events| ==> !Exits(events[i])
    requires key in m.entries
    ensures Update(m, events).Running?
    ensures Pressed(Update(m, events).states, key) <==> SomeRouted(m.entries[key], events, true)
    ensures Released(Update(m, events).states, key) <==> SomeRouted(m.entries[key], events, false)
    ensures (forall i :: 0 <= i < |events| ==> !Routes(events[i], m.entries[key])) ==>
      Holding(Update(m, events).states, key) == m.entries[key].pressed
    ensures forall i :: LastRouted(m.entries[key], events, i) ==>
      Holding(Update(m, events).states, key) == IsDownEvent(events[i])
  {
    var reset := PyDict.MapValues(m, FrameReset);
    FrameIsPerStateReplay(reset, events);
    var s := reset.entries[key];
    ReplayEdges(s, events, true);
    ReplayEdges(s, events, false);
    assert forall e :: Routes(e, s) == Routes(e, m.entries[key]);
    if forall i :: 0 <= i < |events| ==> !Routes(events[i], m.entries[key]) {
      ReplayUnreached(s, events);
    }
    forall i | LastRouted(m.entries[key], events, i)
      ensures Holding(Update(m, events).states, key) == IsDownEvent(events[i])
    {
      assert LastRouted(s, events, i);
      ReplayPressedFollowsLast(s, events, i);
    }
  }

  /** A frame with no events clears every edge and keeps every `pressed` flag. */
  lemma QuietFrame(m: InputMap, key: string)
    ensures Update(m, []).Running?
    ensures !Pressed(Update(m, []).states, key) && !Released(Update(m, []).states, key)
    ensures Holding(Update(m, []).states, key) == Holding(m, key)
  {
  }

  /** A QUIT event or an ESCAPE key-down anywhere in a frame ends the program. */
  lemma {:induction false} ExitEventEndsFrame(m: InputMap, events: seq<Event>)
    requires exists i :: 0 <= i < |events| && Exits(events[i])
    ensures HandleEvents(m, events) == Exited
    decreases |events|
  {
    var e := events[0];
    if !Exits(e) {
      HandleOneEvent(m, e);
      var i :| 0 <= i < |events| && Exits(events[i]);
      assert Exits(events[1..][i - 1]);
      ExitEventEndsFrame(MouseUpdate(KeyboardUpdate(m, e).states, e), events[1..]);
    }
  }

  // ---------------------------------------------------------------------------------------------
  // Building the map

  /** Whether `config[i]` is the last record with its label. */
  ghost predicate LastWithLabel(config: seq<InputMapping>, i: int) {
    0 <= i < |config| && forall j :: i < j < |config| ==> config[j].mappingLabel != config[i].mappingLabel
  }

  /** The input map's keys are exactly the labels of the configuration records. */
  lemma {:induction false} InputMapKeys(config: seq<InputMapping>, k: string)
    ensures k in BuildInputMap(config).entries <==> exists i :: 0 <= i < |config| && config[i].mappingLabel == k
    decreases |config|
  {
    if |config| > 0 {
      var n := |config| - 1;
      var init, last := config[..n], config[n];
      assert BuildInputMap(config)
        == PyDict.Set(BuildInputMap(init), last.mappingLabel, NewState(last.mappingLabel, last.kind, last.inputId));
      InputMapKeys(init, k);
      if k != last.mappingLabel {
        if i :| 0 <= i < |config| && config[i].mappingLabel == k {
          assert init[i] == config[i];
        }
        if i :| 0 <= i < |init| && init[i].mappingLabel == k {
          assert config[i] == init[i];
        }
      }
    }
  }

  /** The state under the name of the last record carrying it is built from that record. */
  lemma {:induction false} InputMapLastState(config: seq<InputMapping>, i: int)
    requires LastWithLabel(config, i)
    ensures config[i].mappingLabel in BuildInputMap(config).entries
    ensures BuildInputMap(config).entries[config[i].mappingLabel]
      == NewState(config[i].mappingLabel, config[i].kind, config[i].inputId)
    decreases |config|
  {
    var n := |config| - 1;
    var init, last := config[..n], config[n];
    var before, after := BuildInputMap(init), BuildInputMap(config);
    var name, st := config[i].mappingLabel, NewState(config[i].mappingLabel, config[i].kind, config[i].inputId);
    assert after == PyDict.Set(before, last.mappingLabel, NewState(last.mappingLabel, last.kind, last.inputId));
    if i < n {
      assert init[i] == config[i];
      assert last.mappingLabel != name;
      assert LastWithLabel(init, i) by {
        forall j | i < j < |init| ensures init[j].mappingLabel != init[i].mappingLabel {
          assert init[j] == config[j];
        }
      }
      InputMapLastState(init, i);
      assert before.entries[name] == st;
      assert after.entries[name] == before.entries[name];
    } else {
      assert after.entries[name] == st;
    }
  }

  /**
   * The input map has one state per distinct name, and when labels repeat, the last record wins.
   */
  lemma InputMapLastWins(config: seq<InputMapping>)
    ensures forall k :: k in BuildInputMap(config).entries <==> exists i :: 0 <= i < |config| && config[i].mappingLabel == k
    ensures forall i :: LastWithLabel(config, i) ==>
      BuildInputMap(config).entries[config[i].mappingLabel]
        == NewState(config[i].mappingLabel, config[i].kind, config[i].inputId)
  {
    forall k ensures k in BuildInputMap(config).entries <==> exists i :: 0 <= i < |config| && config[i].mappingLabel == k {
      InputMapKeys(config, k);
    }
    forall i | LastWithLabel(config, i)
      ensures BuildInputMap(config).entries[config[i].mappingLabel]
        == NewState(config[i].mappingLabel, config[i].kind, config[i].inputId)
    {
      InputMapLastState(config, i);
    }
  }
}

=== FILE: py_builtins.dfy ===
/**
 * The few Python built-in operations the engine's arithmetic and naming depend on, written out
 * because Dafny's own operators differ: `str.lower` (restricted to ASCII letters), floor
 * division `//` and modulo `%`, and `int()` on a float, which truncates toward zero.
 */
module PyBuiltins {

  /** One character of `str.lower`: ASCII upper-case letters become lower-case. */
  function LowerChar(c: char): (r: char)
    ensures 'A' <= c <= 'Z' ==> 'a' <= r <= 'z' && r as int - c as int == 32
    ensures !('A' <= c <= 'Z') ==> r == c
  {
    if 'A' <= c <= 'Z' then (c as int + 32) as char else c
  }

  /** `s.lower()`, character by character. */
  function Lower(s: string): (r: string)
    ensures |r| == |s|
    ensures forall i :: 0 <= i < |s| ==> !('A' <= r[i] <= 'Z')
  {
    seq(|s|, i requires 0 <= i < |s| => LowerChar(s[i]))
  }

  /** Two characters that differ at most in ASCII letter case. */
  predicate SameLetterIgnoringCase(a: char, b: char) {
    a == b
    || ('A' <= a <= 'Z' && b as int == a as int + 32)
    || ('A' <= b <= 'Z' && a as int == b as int + 32)
  }

  /** Two strings that are equal up to ASCII letter case. */
  predicate EqualIgnoringCase(a: string, b: string) {
    |a| == |b| && forall i :: 0 <= i < |a| ==> SameLetterIgnoringCase(a[i], b[i])
  }

  /** Two strings lower-case to the same string exactly when they are equal up to ASCII case. */
  lemma LowerEqualIffEqualIgnoringCase(a: string, b: string)
    ensures Lower(a) == Lower(b) <==> EqualIgnoringCase(a, b)
  {
    if Lower(a) == Lower(b) {
      forall i | 0 <= i < |a| ensures SameLetterIgnoringCase(a[i], b[i]) {
        assert Lower(a)[i] == Lower(b)[i];
      }
    }
    if EqualIgnoringCase(a, b) {
      assert forall i :: 0 <= i < |a| ==> Lower(a)[i] == Lower(b)[i];
    }
  }

  /** Python's `a // b`: the quotient rounded toward negative infinity. */
  function FloorDiv(a: int, b: int): (q: int)
    requires b != 0
    ensures b > 0 ==> b * q <= a < b * q + b
    ensures b < 0 ==> b * q + b < a <= b * q
  {
    if b > 0 then a / b else (-a) / (-b)
  }

  /** Python's `a % b`: the remainder that goes with `FloorDiv`, carrying the sign of `b`. */
  function FloorMod(a: int, b: int): (r: int)
    requires b != 0
    ensures b * FloorDiv(a, b) + r == a
    ensures b > 0 ==> 0 <= r < b
    ensures b < 0 ==> b < r <= 0
  {
    a - b * FloorDiv(a, b)
  }

  /** Python's `int(x)` for a float: truncation toward zero. */
  function TruncToInt(x: real): (r: int)
    ensures x >= 0.0 ==> r as real <= x < r as real + 1.0
    ensures x < 0.0 ==> r as real - 1.0 < x <= r as real
  {
    if x >= 0.0 then x.Floor else -((-x).Floor)
  }

  /** Division in Python's sense undoes `q * b + r` exactly when `r` lies in `FloorMod`'s range. */
  lemma {:induction false} FloorDivOfCombination(q: int, b: int, r: int)
    requires b > 0 && 0 <= r < b
    ensures FloorDiv(q * b + r, b) == q
    ensures FloorMod(q * b + r, b) == r
  {
    var a := q * b + r;
    var d := FloorDiv(a, b);
    var k := d - q;
    assert b * d == b * q + b * k by { Distribute(b, q, k); }
    assert -b < b * k < b;
    if k >= 1 {
      ScaleAtLeast(b, k);
      assert false;
    } else if k <= -1 {
      ScaleAtLeast(b, -k);
      assert false;
    }
  }

  lemma Distribute(b: int, q: int, k: int)
    ensures b * (q + k) == b * q + b * k
  {
  }

  lemma ScaleAtLeast(b: int, k: int)
    requires b > 0 && k >= 1
    ensures b * k >= b && b * -k <= -b
  {
  }
}

=== FILE: py_dict.dfy ===
/**
 * Python's built-in `dict`, as far as the engine relies on it: a finite map that also remembers
 * the order in which its keys were FIRST inserted. Assigning to a key that is already present
 * replaces the value but keeps the key's place; `pop` removes the key from the order; iterating
 * `values()` follows the order.
 */
module PyDict {
  import opened Wrappers

  datatype Dict<K, V> = Dict(order: seq<K>, entries: map<K, V>)

  /** No key is listed twice. */
  ghost predicate Distinct<K(!new)>(s: seq<K>) {
    forall i, j :: 0 <= i < j < |s| ==> s[i] != s[j]
  }

  /** The order lists each key of the map exactly once. */
  ghost predicate Valid<K(!new), V>(d: Dict<K, V>) {
    && Distinct(d.order)
    && (forall k :: k in d.entries <==> k in d.order)
  }

  /** `{}` */
  function Empty<K(==,!new), V>(): (d: Dict<K, V>)
    ensures Valid(d)
    ensures d.entries == map[]
  {
    Dict([], map[])
  }

  /** `d.get(k)` */
  function Get<K(==,!new), V>(d: Dict<K, V>, k: K): (r: Option<V>)
    ensures r.Some? <==> k in d.entries
    ensures r.Some? ==> r.value == d.entries[k]
  {
    if k in d.entries then Some(d.entries[k]) else None
  }

  /** `d[k] = v` (also `d.update({k: v})`): a new key goes to the end, a present key keeps its place. */
  function Set<K(==,!new), V>(d: Dict<K, V>, k: K, v: V): (r: Dict<K, V>)
    requires Valid(d)
    ensures Valid(r)
    ensures r.entries == d.entries[k := v]
    ensures k in d.entries ==> r.order == d.order
    ensures k !in d.entries ==> r.order == d.order + [k]
  {
    if k in d.entries then Dict(d.order, d.entries[k := v])
    else Dict(d.order + [k], d.entries[k := v])
  }

  /** `s` with every occurrence of `k` taken out, the rest in their original order. */
  function Without<K(==,!new)>(s: seq<K>, k: K): (r: seq<K>)
    ensures forall x :: x in r <==> x in s && x != k
    ensures Distinct(s) ==> Distinct(r)
    ensures k !in s ==> r == s
    ensures |r| <= |s|
  {
    if |s| == 0 then []
    else if s[0] == k then Without(s[1..], k)
    else
      var rest := Without(s[1..], k);
      assert Distinct(s) ==> Distinct([s[0]] + rest) by {
        if Distinct(s) {
          HeadNotInTail(s);
          PrependDistinct(s[0], rest);
        }
      }
      [s[0]] + rest
  }

  lemma HeadNotInTail<K(!new)>(s: seq<K>)
    requires Distinct(s) && |s| > 0
    ensures s[0] !in s[1..]
    ensures Distinct(s[1..])
  {
    forall i | 0 <= i < |s[1..]| ensures s[1..][i] != s[0] {
      assert s[1..][i] == s[i + 1];
    }
  }

  lemma PrependDistinct<K(!new)>(x: K, s: seq<K>)
    requires Distinct(s) && x !in s
    ensures Distinct([x] + s)
  {
    forall i, j | 0 <= i < j < |[x] + s| ensures ([x] + s)[i] != ([x] + s)[j] {
      assert ([x] + s)[j] == s[j - 1];
      if i > 0 { assert ([x] + s)[i] == s[i - 1]; }
    }
  }

  /** `d.pop(k)` for a present key: the removed value and the dict without `k`. */
  function Pop<K(==,!new), V>(d: Dict<K, V>, k: K): (r: (V, Dict<K, V>))
    requires Valid(d) && k in d.entries
    ensures Valid(r.1)
    ensures r.0 == d.entries[k]
    ensures r.1.entries == d.entries - {k}
    ensures r.1.order == Without(d.order, k)
    ensures |r.1.order| == |d.order| - 1
  {
    var rest := Without(d.order, k);
    assert |rest| == |d.order| - 1 by { WithoutPresentShrinks(d.order, k); }
    (d.entries[k], Dict(rest, d.entries - {k}))
  }

  /** `list(d.values())`: the values in key order. */
  function Values<K(==,!new), V>(d: Dict<K, V>): (r: seq<V>)
    requires Valid(d)
    ensures |r| == |d.order|
    ensures forall i :: 0 <= i < |r| ==> r[i] == d.entries[d.order[i]]
  {
    seq(|d.order|, i requires 0 <= i < |d.order| => d.entries[d.order[i]])
  }

  /** `d` with every value transformed by `f`, keys and order untouched. */
  function MapValues<K(==,!new), V>(d: Dict<K, V>, f: V -> V): (r: Dict<K, V>)
    ensures r.order == d.order
    ensures r.entries.Keys == d.entries.Keys
    ensures forall k :: k in d.entries ==> r.entries[k] == f(d.entries[k])
  {
    Dict(d.order, map k | k in d.entries :: f(d.entries[k]))
  }

  /** Removing a key that occurs once in a sequence shortens it by exactly one. */
  lemma {:induction false} WithoutPresentShrinks<K(!new)>(s: seq<K>, k: K)
    requires Distinct(s) && k in s
    ensures |Without(s, k)| == |s| - 1
  {
    if s[0] == k {
      assert k !in s[1..] by {
        forall i | 0 <= i < |s[1..]| ensures s[1..][i] != k {
          assert s[1..][i] == s[i + 1];
        }
      }
    } else {
      assert k in s[1..];
      WithoutPresentShrinks(s[1..], k);
    }
  }

  /** A sequence without repeats has as many distinct elements as it has positions. */
  lemma {:induction false} DistinctCardinality<K(!new)>(s: seq<K>)
    requires Distinct(s)
    ensures |set x | x in s| == |s|
  {
    if |s| > 0 {
      var tail := s[1..];
      assert Distinct(tail);
      DistinctCardinality(tail);
      assert s[0] !in tail by {
        forall i | 0 <= i < |tail| ensures tail[i] != s[0] {
          assert tail[i] == s[i + 1];
        }
      }
      assert (set x | x in s) == (set x | x in tail) + {s[0]};
    }
  }

  /** In a well-formed dict, the number of entries is the length of the key order. */
  lemma SizeIsOrderLength<K(!new), V>(d: Dict<K, V>)
    requires Valid(d)
    ensures |d.entries| == |d.order|
  {
    DistinctCardinality(d.order);
    assert d.entries.Keys == set x | x in d.order;
  }

  /** Inserting a fresh key and popping it again gives back the original dict, order included. */
  lemma {:induction false} SetFreshThenPop<K(!new), V>(d: Dict<K, V>, k: K, v: V)
    requires Valid(d) && k !in d.entries
    ensures Pop(Set(d, k, v), k) == (v, d)
  {
    WithoutAppended(d.order, k);
    assert d.entries[k := v] - {k} == d.entries;
  }

  /** Removing the key at position `i` leaves the keys before and after it in their order. */
  lemma WithoutAt<K(!new)>(s: seq<K>, i: int)
    requires Distinct(s) && 0 <= i < |s|
    ensures Without(s, s[i]) == s[..i] + s[i + 1..]
  {
    DistinctSplit(s, i);
    WithoutAtSplit(s, i);
  }

  /** `WithoutAt` for any list whose key at position `i` occurs only there. */
  lemma WithoutAtSplit<K(!new)>(s: seq<K>, i: int)
    requires 0 <= i < |s| && s[i] !in s[..i] && s[i] !in s[i + 1..]
    ensures Without(s, s[i]) == s[..i] + s[i + 1..]
  {
    assert s == s[..i] + [s[i]] + s[i + 1..];
    WithoutOnce(s[..i], s[i], s[i + 1..]);
  }

  /** In a list without repeats, the key at position `i` occurs neither before nor after it. */
  lemma DistinctSplit<K(!new)>(s: seq<K>, i: int)
    requires Distinct(s) && 0 <= i < |s|
    ensures s[i] !in s[..i] && s[i] !in s[i + 1..]
  {
    forall j | 0 <= j < |s| && j != i ensures s[j] != s[i] {
      if j < i { assert s[j] != s[i]; } else { assert s[i] != s[j]; }
    }
  }

  /** Removing a key that occurs once, between `a` and `b`, leaves `a + b`. */
  lemma WithoutOnce<K(!new)>(a: seq<K>, k: K, b: seq<K>)
    requires k !in a && k !in b
    ensures Without(a + [k] + b, k) == a + b
  {
    assert a + [k] + b == a + ([k] + b);
    WithoutConcat(a, [k] + b, k);
    WithoutConcat([k], b, k);
    assert Without([k], k) == [];
  }

  /** Removing a key from a concatenation removes it from each part. */
  lemma {:induction false} WithoutConcat<K(!new)>(a: seq<K>, b: seq<K>, k: K)
    ensures Without(a + b, k) == Without(a, k) + Without(b, k)
    decreases |a|
  {
    if |a| == 0 {
      assert a + b == b;
    } else {
      assert (a + b)[0] == a[0] && (a + b)[1..] == a[1..] + b;
      WithoutConcat(a[1..], b, k);
      if a[0] != k {
        assert [a[0]] + (Without(a[1..], k) + Without(b, k)) == ([a[0]] + Without(a[1..], k)) + Without(b, k);
      }
    }
  }

  lemma {:induction false} WithoutAppended<K(!new)>(s: seq<K>, k: K)
    requires k !in s
    ensures Without(s + [k], k) == s
  {
    if |s| == 0 {
      assert s + [k] == [k];
    } else {
      assert (s + [k])[1..] == s[1..] + [k];
      assert k !in s[1..];
      WithoutAppended(s[1..], k);
    }
  }
}

=== FILE: tile.dfy ===
/**
 * Tiles and the compass directions between grid cells. A tile is a grid position plus the
 * blueprint it was made from and the index of its image variant. The tile's back-reference to its
 * grid is not stored; the operations that follow it take the grid as an argument (module
 * WorldGrids).
 */
module Tiles {
  import GameComponents
  import PyBuiltins

  datatype Pos = Pos(x: int, y: int)

  datatype Tile = Tile(pos: Pos, blueprint: GameComponents.TileBlueprint, variant: int)

  /** `BuildConfig.tile_width` and `tile_height`, in pixels. */
  const TileWidth: int := 16
  const TileHeight: int := 16

  /** The `Direction` enum. */
  datatype Direction = NorthWest | North | NorthEast | West | East | SouthWest | South | SouthEast

  /** `Direction.get_relative_pos`: the (dx, dy) step to the adjacent cell; y grows southwards. */
  function Offset(d: Direction): (r: (int, int))
    ensures -1 <= r.0 <= 1 && -1 <= r.1 <= 1
    ensures r != (0, 0)
  {
    match d
    case NorthWest => (-1, -1)
    case North => (0, -1)
    case NorthEast => (1, -1)
    case West => (-1, 0)
    case East => (1, 0)
    case SouthWest => (-1, 1)
    case South => (0, 1)
    case SouthEast => (1, 1)
  }

  /**
   * The offset table is the whole 8-neighbourhood, each cell once: distinct directions have
   * distinct offsets, and every non-zero step in {-1, 0, 1}^2 belongs to a direction.
   */
  lemma OffsetTableIsEightNeighbourhood(d: Direction, e: Direction, dx: int, dy: int)
    ensures d != e ==> Offset(d) != Offset(e)
    ensures -1 <= dx <= 1 && -1 <= dy <= 1 && (dx, dy) != (0, 0) ==> exists f :: Offset(f) == (dx, dy)
  {
    if -1 <= dx <= 1 && -1 <= dy <= 1 && (dx, dy) != (0, 0) {
      var f :=
        if dy == -1 then (if dx == -1 then NorthWest else if dx == 0 then North else NorthEast)
        else if dy == 0 then (if dx == -1 then West else East)
        else (if dx == -1 then SouthWest else if dx == 0 then South else SouthEast);
      assert Offset(f) == (dx, dy);
    }
  }

  /** The direction whose step undoes `d`'s. */
  function Opposite(d: Direction): (r: Direction)
    ensures Offset(r) == (-Offset(d).0, -Offset(d).1)
  {
    match d
    case NorthWest => SouthEast
    case North => South
    case NorthEast => SouthWest
    case West => East
    case East => West
    case SouthWest => NorthEast
    case South => North
    case SouthEast => NorthWest
  }

  /** `Tile.__init__`: a tile always starts on image variant 0. */
  function NewTile(pos: Pos, blueprint: GameComponents.TileBlueprint): (t: Tile)
    ensures t.pos == pos && t.blueprint == blueprint && t.variant == 0
  {
    Tile(pos, blueprint, 0)
  }

  /**
   * `TileBlueprint.create_instance(x, y, grid)` (declared with the blueprint; placed here because
   * it builds a `Tile`): a fresh tile at `(x, y)` made from the receiving blueprint.
   */
  function CreateInstance(b: GameComponents.TileBlueprint, x: int, y: int): (t: Tile)
    ensures t.pos == Pos(x, y) && t.variant == 0
    ensures GetTileType(t) == b.tileType && t.blueprint == b
  {
    NewTile(Pos(x, y), b)
  }

  /** `Tile.get_tile_type`: a tile has no type of its own; it is the type of its blueprint. */
  function GetTileType(t: Tile): (r: GameComponents.TileType)
    ensures r == t.blueprint.tileType
  {
    t.blueprint.tileType
  }

  /**
   * `Tile.get_tile_id` for a grid of side `worldSize`: row-major on x. For a positive side and a
   * y inside `[0, worldSize)`, floor division and remainder by the side give the cell back.
   */
  function TileId(t: Tile, worldSize: int): (r: int)
    ensures r == t.pos.x * worldSize + t.pos.y
    ensures worldSize > 0 && 0 <= t.pos.y < worldSize ==>
      PyBuiltins.FloorDiv(r, worldSize) == t.pos.x && PyBuiltins.FloorMod(r, worldSize) == t.pos.y
  {
    var id := t.pos.x * worldSize + t.pos.y;
    if worldSize > 0 && 0 <= t.pos.y < worldSize then PyBuiltins.FloorDivOfCombination(t.pos.x, worldSize, t.pos.y); id
    else id
  }

  /**
   * The top-left pixel where `render_tile` blits the tile. The source scales y by `tile_width`
   * too; with square tiles that is the same as scaling by `tile_height`.
   */
  function PixelPos(t: Tile): (r: (int, int))
    ensures r == (t.pos.x * TileWidth, t.pos.y * TileHeight)
    // the pixel position determines the cell: dividing by the tile size gives it back
    ensures PyBuiltins.FloorDiv(r.0, TileWidth) == t.pos.x && PyBuiltins.FloorMod(r.0, TileWidth) == 0
    ensures PyBuiltins.FloorDiv(r.1, TileHeight) == t.pos.y && PyBuiltins.FloorMod(r.1, TileHeight) == 0
  {
    PyBuiltins.FloorDivOfCombination(t.pos.x, TileWidth, 0);
    PyBuiltins.FloorDivOfCombination(t.pos.y, TileHeight, 0);
    (t.pos.x * TileWidth, t.pos.y * TileWidth)
  }
}

=== FILE: world_grid.dfy ===
/**
 * The tile grid of a scene (`WorldGrid`): a dict from `(x, y)` to the tile occupying that cell,
 * the side length `worldSize` used by tile ids, and the blueprint catalogue tiles are made from.
 *
 * The key is the position alone: a blueprint's layer neither separates tiles nor orders them, and
 * tiles are drawn in the dict's insertion order. The catalogue's own type is not part of this
 * model; it is taken as a partial map from key to blueprint, and a missing key makes
 * `create_tile` fail (in Python, `None.create_instance` raises).
 */
module WorldGrids {
  import opened Wrappers
  import PyDict
  import PyBuiltins
  import opened GameComponents
  import opened Tiles

  datatype GridError = BlueprintNotFound

  datatype WorldGrid = WorldGrid(
    tiles: PyDict.Dict<Pos, Tile>,
    worldSize: int,
    blueprints: map<string, TileBlueprint>)

  /** Every tile is stored under its own position. */
  ghost predicate Valid(g: WorldGrid) {
    && PyDict.Valid(g.tiles)
    && forall p :: p in g.tiles.entries ==> g.tiles.entries[p].pos == p
  }

  /**
   * How `create_tile` compares the occupant's `TileType` with the requested key string.
   * `EnumIdentity` is Python's `==` between an `Enum` member and a `str`, which is never true;
   * `EnumValue` compares the member's `.value` with the key, as the code's comment intends.
   */
  datatype TagComparison = EnumIdentity | EnumValue

  predicate TagMatches(c: TagComparison, t: TileType, key: string) {
    match c
    case EnumIdentity => false
    case EnumValue => TileTypeValue(t) == key
  }

  /** `get_tile`: the occupant of `(x, y)`, `None` for an empty cell. */
  function GetTile(g: WorldGrid, x: int, y: int): (r: Option<Tile>)
    requires Valid(g)
    ensures r.Some? <==> Pos(x, y) in g.tiles.entries
    ensures r.Some? ==> r.value == g.tiles.entries[Pos(x, y)] && r.value.pos == Pos(x, y)
  {
    PyDict.Get(g.tiles, Pos(x, y))
  }

  /** `add_tile`: store a tile under its own position, replacing any occupant in place. */
  function AddTile(g: WorldGrid, t: Tile): (r: WorldGrid)
    requires Valid(g)
    ensures Valid(r)
    ensures r.tiles.entries == g.tiles.entries[t.pos := t]
    ensures t.pos in g.tiles.entries ==> r.tiles.order == g.tiles.order
    ensures t.pos !in g.tiles.entries ==> r.tiles.order == g.tiles.order + [t.pos]
    ensures r.worldSize == g.worldSize && r.blueprints == g.blueprints
  {
    g.(tiles := PyDict.Set(g.tiles, t.pos, t))
  }

  /**
   * `create_tile(x, y, key)` under comparison `c`: keep an occupant of the same type, otherwise
   * make a tile from blueprint `key` and store it at `(x, y)`. Returns the grid and the tile.
   */
  function CreateTileWith(g: WorldGrid, x: int, y: int, key: string, c: TagComparison)
    : (r: Result<(WorldGrid, Tile), GridError>)
    requires Valid(g)
    ensures r.Success? ==> Valid(r.value.0)
    ensures r.Success? ==> GetTile(r.value.0, x, y) == Some(r.value.1)
    ensures r.Success? ==> r.value.0.worldSize == g.worldSize && r.value.0.blueprints == g.blueprints
    // an occupant of the requested type is returned and nothing changes
    ensures GetTile(g, x, y).Some? && TagMatches(c, GetTileType(GetTile(g, x, y).value), key) ==>
      r == Success((g, GetTile(g, x, y).value))
    // otherwise an unknown key fails and a known one stores a fresh tile from that blueprint
    ensures !(GetTile(g, x, y).Some? && TagMatches(c, GetTileType(GetTile(g, x, y).value), key)) ==>
      if key !in g.blueprints then r == Failure(BlueprintNotFound)
      else
        && r.Success?
        && r.value.1 == CreateInstance(g.blueprints[key], x, y)
        && r.value.0.tiles.entries == g.tiles.entries[Pos(x, y) := r.value.1]
        && (GetTile(g, x, y).Some? ==> r.value.0.tiles.order == g.tiles.order)
        && (GetTile(g, x, y).None? ==> r.value.0.tiles.order == g.tiles.order + [Pos(x, y)])
  {
    var existing := GetTile(g, x, y);
    if existing.None? || !TagMatches(c, GetTileType(existing.value), key) then
      if key !in g.blueprints then Failure(BlueprintNotFound)
      else
        var t := CreateInstance(g.blueprints[key], x, y);
        Success((AddTile(g, t), t))
    else
      Success((g, existing.value))
  }

  /** `create_tile` as it behaves in Python: the type check never matches, so it always rebuilds. */
  function CreateTileAsWritten(g: WorldGrid, x: int, y: int, key: string): (r: Result<(WorldGrid, Tile), GridError>)
    requires Valid(g)
    ensures key in g.blueprints <==> r.Success?
    ensures r.Success? ==> r.value.1 == CreateInstance(g.blueprints[key], x, y)
    ensures r.Success? ==> r.value.0.tiles.entries == g.tiles.entries[Pos(x, y) := r.value.1]
    ensures r.Success? ==> Valid(r.value.0) && r.value.0.worldSize == g.worldSize && r.value.0.blueprints == g.blueprints
    // a replaced cell keeps its place in the drawing order; a new cell is drawn last
    ensures r.Success? && GetTile(g, x, y).Some? ==> r.value.0.tiles.order == g.tiles.order
    ensures r.Success? && GetTile(g, x, y).None? ==> r.value.0.tiles.order == g.tiles.order + [Pos(x, y)]
  {
    CreateTileWith(g, x, y, key, EnumIdentity)
  }

  /** `create_tile` with the type check its comment describes (the occupant's tag value against the key). */
  function CreateTile(g: WorldGrid, x: int, y: int, key: string): (r: Result<(WorldGrid, Tile), GridError>)
    requires Valid(g)
    ensures GetTile(g, x, y).Some? && TileTypeValue(GetTileType(GetTile(g, x, y).value)) == key ==>
      r == Success((g, GetTile(g, x, y).value))
    ensures GetTile(g, x, y).None? ==> (key in g.blueprints <==> r.Success?)
    // an empty cell, or an occupant of another type: an unknown key fails, a known one stores a
    // fresh tile in that one cell
    ensures !(GetTile(g, x, y).Some? && TileTypeValue(GetTileType(GetTile(g, x, y).value)) == key) ==>
      if key !in g.blueprints then r == Failure(BlueprintNotFound)
      else
        && r.Success?
        && r.value.1 == CreateInstance(g.blueprints[key], x, y)
        && r.value.0.tiles.entries == g.tiles.entries[Pos(x, y) := r.value.1]
        && (GetTile(g, x, y).Some? ==> r.value.0.tiles.order == g.tiles.order)
        && (GetTile(g, x, y).None? ==> r.value.0.tiles.order == g.tiles.order + [Pos(x, y)])
    ensures r.Success? ==> Valid(r.value.0) && GetTile(r.value.0, x, y) == Some(r.value.1)
  {
    CreateTileWith(g, x, y, key, EnumValue)
  }

  /** `remove_tile`: take the occupant of `(x, y)` out and return it; `None` and no change on a miss. */
  function RemoveTile(g: WorldGrid, x: int, y: int): (r: (WorldGrid, Option<Tile>))
    requires Valid(g)
    ensures Valid(r.0)
    ensures r.1 == GetTile(g, x, y)
    ensures r.1.None? ==> r.0 == g
    ensures r.0.tiles.entries == g.tiles.entries - {Pos(x, y)}
    // the remaining cells keep their insertion order, so `render` keeps drawing them in that order
    ensures r.0.tiles.order == PyDict.Without(g.tiles.order, Pos(x, y))
    ensures r.0.worldSize == g.worldSize && r.0.blueprints == g.blueprints
  {
    if Pos(x, y) in g.tiles.entries then
      var (t, rest) := PyDict.Pop(g.tiles, Pos(x, y));
      (g.(tiles := rest), Some(t))
    else
      (g, None)
  }

  /**
   * `get_tile_at(x, y)` for float coordinates: `None` unless both are positive, otherwise the
   * occupant of the cell `(int(x), int(y))`.
   */
  function GetTileAt(g: WorldGrid, x: real, y: real): (r: Option<Tile>)
    requires Valid(g)
    ensures x <= 0.0 || y <= 0.0 ==> r.None?
    ensures x > 0.0 && y > 0.0 ==> r == GetTile(g, x.Floor, y.Floor)
  {
    if x > 0.0 && y > 0.0 then GetTile(g, PyBuiltins.TruncToInt(x), PyBuiltins.TruncToInt(y))
    else None
  }

  /** The cell a tile id names: `(id // worldSize, id % worldSize)` with Python's floor semantics. */
  function DecodeId(id: int, worldSize: int): (p: Pos)
    requires worldSize != 0
    ensures p.x * worldSize + p.y == id
  {
    var p := Pos(PyBuiltins.FloorDiv(id, worldSize), PyBuiltins.FloorMod(id, worldSize));
    assert p.x * worldSize == worldSize * p.x;
    p
  }

  /** `get_tile_from_id`. A zero `worldSize` raises `ZeroDivisionError` in Python and is excluded. */
  function GetTileFromId(g: WorldGrid, id: int): (r: Option<Tile>)
    requires Valid(g) && g.worldSize != 0
    ensures r.Some? <==> DecodeId(id, g.worldSize) in g.tiles.entries
    ensures r.Some? ==> r.value == g.tiles.entries[DecodeId(id, g.worldSize)]
    ensures r.Some? ==> TileId(r.value, g.worldSize) == id
  {
    var p := DecodeId(id, g.worldSize);
    GetTile(g, p.x, p.y)
  }

  /** `Tile.get_neighbour(d)`: the occupant of the cell one step from `t` in direction `d`. */
  function Neighbour(g: WorldGrid, t: Tile, d: Direction): (r: Option<Tile>)
    requires Valid(g)
    ensures r.Some? <==> Pos(t.pos.x + Offset(d).0, t.pos.y + Offset(d).1) in g.tiles.entries
    ensures r.Some? ==> r.value == g.tiles.entries[Pos(t.pos.x + Offset(d).0, t.pos.y + Offset(d).1)]
    ensures r.Some? ==> r.value.pos == Pos(t.pos.x + Offset(d).0, t.pos.y + Offset(d).1)
  {
    GetTile(g, t.pos.x + Offset(d).0, t.pos.y + Offset(d).1)
  }

  /**
   * `Tile.get_neighbours`: the four orthogonal neighbours, in the order north, east, south, west
   * (y grows southwards).
   */
  function Neighbours(g: WorldGrid, t: Tile): (r: seq<Option<Tile>>)
    requires Valid(g)
    ensures |r| == 4
    ensures r[0] == GetTile(g, t.pos.x, t.pos.y - 1)
    ensures r[1] == GetTile(g, t.pos.x + 1, t.pos.y)
    ensures r[2] == GetTile(g, t.pos.x, t.pos.y + 1)
    ensures r[3] == GetTile(g, t.pos.x - 1, t.pos.y)
  {
    [Neighbour(g, t, North), Neighbour(g, t, East), Neighbour(g, t, South), Neighbour(g, t, West)]
  }

  /** The order in which `render` draws the tiles: the dict's insertion order of positions. */
  function RenderOrder(g: WorldGrid): (r: seq<Tile>)
    requires Valid(g)
    ensures |r| == |g.tiles.order|
    ensures forall i :: 0 <= i < |r| ==> r[i].pos == g.tiles.order[i] && r[i] in g.tiles.entries.Values
  {
    PyDict.Values(g.tiles)
  }

  // ---------------------------------------------------------------------------------------------
  // Construction and the demonstration layout

  /** One `create_tile(x, y, key)` call. */
  datatype CreateCall = CreateCall(x: int, y: int, key: string)

  /** A series of `create_tile` calls, stopping at the first that raises. */
  function CreateAll(g: WorldGrid, calls: seq<CreateCall>, c: TagComparison): (r: Result<WorldGrid, GridError>)
    requires Valid(g)
    ensures r.Success? ==> Valid(r.value)
    ensures r.Success? ==> r.value.worldSize == g.worldSize && r.value.blueprints == g.blueprints
    decreases |calls|
  {
    if |calls| == 0 then Success(g)
    else
      match CreateTileWith(g, calls[0].x, calls[0].y, calls[0].key, c)
      case Success((g', _)) => CreateAll(g', calls[1..], c)
      case Failure(e) => Failure(e)
  }

  /** The calls of `setup_grid`: for i in 0..9, grass at (3 + i, 10), then "dirt" at (10, 5 + i). */
  function SetupCalls(): (r: seq<CreateCall>)
    ensures |r| == 20
  {
    seq(20, j requires 0 <= j < 20 =>
      if j % 2 == 0 then CreateCall(3 + j / 2, 10, "grass") else CreateCall(10, 5 + j / 2, "dirt"))
  }

  /** The cells `setup_grid` addresses: row 10 from x = 3 to 12 and column 10 from y = 5 to 14. */
  predicate OnLayout(p: Pos) {
    (p.y == 10 && 3 <= p.x <= 12) || (p.x == 10 && 5 <= p.y <= 14)
  }

  /**
   * The tile the shared cell (10, 10) holds after `setup_grid` on an empty grid. The cell receives
   * dirt first and grass second; the grass call keeps the dirt tile exactly when the dirt
   * blueprint's type counts as "grass" under `c`.
   */
  function SharedTile(c: TagComparison, blueprints: map<string, TileBlueprint>): (t: Tile)
    requires "grass" in blueprints && "dirt" in blueprints
    ensures t.pos == Pos(10, 10) && t.variant == 0
  {
    if TagMatches(c, blueprints["dirt"].tileType, "grass") then CreateInstance(blueprints["dirt"], 10, 10)
    else CreateInstance(blueprints["grass"], 10, 10)
  }

  /**
   * `setup_grid` under comparison `c`, on any grid: with both keys in the catalogue it succeeds,
   * every cell of the two lines is then occupied, and every other cell is as it was.
   */
  function SetupGridWith(g: WorldGrid, c: TagComparison): (r: Result<WorldGrid, GridError>)
    requires Valid(g)
    ensures "grass" in g.blueprints && "dirt" in g.blueprints ==> r.Success?
    ensures r.Success? ==> Valid(r.value) && r.value.worldSize == g.worldSize && r.value.blueprints == g.blueprints
    ensures r.Success? ==> forall p :: p in r.value.tiles.entries <==> p in g.tiles.entries || OnLayout(p)
    ensures r.Success? ==> forall p :: !OnLayout(p) ==> GetTile(r.value, p.x, p.y) == GetTile(g, p.x, p.y)
  {
    SetupGridFacts(g, c);
    CreateAll(g, SetupCalls(), c)
  }

  /**
   * `WorldGrid.__init__` under comparison `c`: an empty tile map of the given side, then
   * `setup_grid`. It raises exactly when "grass" or "dirt" is missing from the catalogue. Otherwise
   * the grid holds the 19 cells of the two lines, listed in call order without the second visit to
   * (10, 10). Row 10 holds fresh grass tiles, column 10 fresh dirt tiles, and the shared cell
   * holds `SharedTile`.
   */
  function NewWorldGrid(worldSize: int, blueprints: map<string, TileBlueprint>, c: TagComparison)
    : (r: Result<WorldGrid, GridError>)
    ensures r.Success? <==> "grass" in blueprints && "dirt" in blueprints
    ensures r.Failure? ==> r.error == BlueprintNotFound
    ensures r.Success? ==> Valid(r.value) && r.value.worldSize == worldSize && r.value.blueprints == blueprints
    ensures r.Success? ==> r.value.tiles.order == Positions(SetupCalls())[..14] + Positions(SetupCalls())[15..]
    ensures r.Success? ==> |r.value.tiles.entries| == 19 && forall p :: p in r.value.tiles.entries <==> OnLayout(p)
    ensures r.Success? ==> forall x :: 3 <= x <= 12 && x != 10 ==>
      Pos(x, 10) in r.value.tiles.entries && r.value.tiles.entries[Pos(x, 10)] == CreateInstance(blueprints["grass"], x, 10)
    ensures r.Success? ==> forall y :: 5 <= y <= 14 && y != 10 ==>
      Pos(10, y) in r.value.tiles.entries && r.value.tiles.entries[Pos(10, y)] == CreateInstance(blueprints["dirt"], 10, y)
    ensures r.Success? ==>
      Pos(10, 10) in r.value.tiles.entries && r.value.tiles.entries[Pos(10, 10)] == SharedTile(c, blueprints)
  {
    NewWorldGridLayout(worldSize, blueprints, c);
    SetupGridWith(WorldGrid(PyDict.Empty(), worldSize, blueprints), c)
  }

  // ---------------------------------------------------------------------------------------------
  // Properties

  /**
   * The comparison in `create_tile` as written never sees a matching type: asked for "grass" on a
   * cell that already holds a grass tile showing image variant 2, it discards that tile for a fresh
   * one on variant 0, where the intended check returns the occupant and changes nothing.
   */
  lemma AsWrittenRebuildsSameTypeTile(b: TileBlueprint, worldSize: int)
    requires b.tileType == Grass
    ensures var occupant := Tile(Pos(1, 1), b, 2);
      var g := WorldGrid(PyDict.Set(PyDict.Empty(), Pos(1, 1), occupant), worldSize, map["grass" := b]);
      && Valid(g)
      && CreateTileAsWritten(g, 1, 1, "grass") == Success((AddTile(g, Tile(Pos(1, 1), b, 0)), Tile(Pos(1, 1), b, 0)))
      && CreateTile(g, 1, 1, "grass") == Success((g, occupant))
  {
  }

  /** Creating a tile on an empty cell and removing it again gives back the original grid. */
  lemma CreateThenRemoveRestores(g: WorldGrid, x: int, y: int, key: string)
    requires Valid(g)
    requires GetTile(g, x, y).None? && key in g.blueprints
    ensures CreateTile(g, x, y, key).Success?
    ensures var (g', t) := CreateTile(g, x, y, key).value;
      RemoveTile(g', x, y) == (g, Some(t))
  {
    var t := CreateInstance(g.blueprints[key], x, y);
    PyDict.SetFreshThenPop(g.tiles, Pos(x, y), t);
  }

  /**
   * Two creations at one cell with different types leave exactly one tile there, made from the
   * second blueprint, and no other cell is affected.
   */
  lemma LastWriteWins(g: WorldGrid, x: int, y: int, first: string, second: string)
    requires Valid(g)
    requires first in g.blueprints && second in g.blueprints
    requires TileTypeValue(g.blueprints[first].tileType) != second
    requires GetTile(g, x, y).Some? ==> TileTypeValue(GetTileType(GetTile(g, x, y).value)) != first
    ensures CreateTile(g, x, y, first).Success?
    ensures CreateTile(CreateTile(g, x, y, first).value.0, x, y, second).Success?
    ensures var g2 := CreateTile(CreateTile(g, x, y, first).value.0, x, y, second).value.0;
      && GetTile(g2, x, y) == Some(CreateInstance(g.blueprints[second], x, y))
      && g2.tiles.entries.Keys == g.tiles.entries.Keys + {Pos(x, y)}
      && forall p :: p != Pos(x, y) && p in g.tiles.entries ==> g2.tiles.entries[p] == g.tiles.entries[p]
  {
  }

  /** After `remove_tile` the cell is empty and every other cell reads as before. */
  lemma RemoveThenGet(g: WorldGrid, x: int, y: int, x': int, y': int)
    requires Valid(g)
    ensures GetTile(RemoveTile(g, x, y).0, x, y).None?
    ensures (x', y') != (x, y) ==> GetTile(RemoveTile(g, x, y).0, x', y') == GetTile(g, x', y')
  {
  }

  /**
   * Removing the cell at position `i` of the insertion order keeps the cells before and after it
   * in their order, so `render` draws the remaining tiles in the same relative order as before.
   */
  lemma RemoveKeepsDrawOrder(g: WorldGrid, i: int)
    requires Valid(g) && 0 <= i < |g.tiles.order|
    ensures var p := g.tiles.order[i];
      RemoveTile(g, p.x, p.y).0.tiles.order == g.tiles.order[..i] + g.tiles.order[i + 1..]
  {
    PyDict.WithoutAt(g.tiles.order, i);
  }

  /**
   * With whole-number coordinates `get_tile_at` is `get_tile` on the positive quadrant and never
   * reaches row or column 0; a fractional coordinate below 1 does reach column 0.
   */
  lemma GetTileAtReach(g: WorldGrid, x: int, y: int)
    requires Valid(g)
    ensures x > 0 && y > 0 ==> GetTileAt(g, x as real, y as real) == GetTile(g, x, y)
    ensures x == 0 || y == 0 ==> GetTileAt(g, x as real, y as real).None?
    ensures GetTileAt(g, 0.5, 1.0) == GetTile(g, 0, 1)
  {
  }

  /** Tile ids are a bijection between cells whose y lies in `[0, worldSize)` and all integers. */
  lemma {:induction false} TileIdRoundTrip(x: int, y: int, worldSize: int, id: int)
    requires worldSize > 0
    ensures 0 <= y < worldSize ==> DecodeId(x * worldSize + y, worldSize) == Pos(x, y)
    ensures 0 <= DecodeId(id, worldSize).y < worldSize
    ensures DecodeId(id, worldSize).x * worldSize + DecodeId(id, worldSize).y == id
  {
    if 0 <= y < worldSize {
      PyBuiltins.FloorDivOfCombination(x, worldSize, y);
    }
  }

  /** A tile whose y lies in `[0, worldSize)` is found again from its own id. */
  lemma TileFoundById(g: WorldGrid, t: Tile)
    requires Valid(g) && g.worldSize > 0
    requires t.pos in g.tiles.entries && g.tiles.entries[t.pos] == t
    requires 0 <= t.pos.y < g.worldSize
    ensures GetTileFromId(g, TileId(t, g.worldSize)) == Some(t)
  {
    TileIdRoundTrip(t.pos.x, t.pos.y, g.worldSize, 0);
  }

  /**
   * Ids do not round-trip outside the world's side: the demonstration layout places a tile at
   * (10, 12) in a grid of side 10; its id 112 decodes to the cell (11, 2).
   */
  lemma TileIdCollidesOutsideWorld(b: TileBlueprint)
    ensures TileId(CreateInstance(b, 10, 12), 10) == 112
    ensures DecodeId(112, 10) == Pos(11, 2)
    ensures TileId(CreateInstance(b, 11, 2), 10) == 112
  {
    PyBuiltins.FloorDivOfCombination(11, 10, 2);
  }

  /** If `u` is `t`'s neighbour in direction `d`, then `t` is `u`'s neighbour in the opposite direction. */
  lemma NeighbourSymmetric(g: WorldGrid, t: Tile, d: Direction)
    requires Valid(g)
    requires t.pos in g.tiles.entries && g.tiles.entries[t.pos] == t
    requires Neighbour(g, t, d).Some?
    ensures Neighbour(g, Neighbour(g, t, d).value, Opposite(d)) == Some(t)
  {
  }

  function Abs(n: int): nat {
    if n < 0 then -n else n
  }

  /** Two cells one orthogonal step apart. */
  predicate OrthogonallyAdjacent(p: Pos, q: Pos) {
    Abs(p.x - q.x) + Abs(p.y - q.y) == 1
  }

  /**
   * `get_neighbours` returns exactly the tiles one orthogonal step away: each entry found is
   * adjacent to `t`, and every tile adjacent to `t` is among the entries.
   */
  lemma NeighboursAreOrthogonallyAdjacent(g: WorldGrid, t: Tile)
    requires Valid(g)
    ensures forall i :: 0 <= i < 4 && Neighbours(g, t)[i].Some? ==>
      OrthogonallyAdjacent(Neighbours(g, t)[i].value.pos, t.pos)
    ensures forall p :: p in g.tiles.entries && OrthogonallyAdjacent(p, t.pos) ==>
      Some(g.tiles.entries[p]) in Neighbours(g, t)
  {
    var n := Neighbours(g, t);
    forall p | p in g.tiles.entries && OrthogonallyAdjacent(p, t.pos)
      ensures Some(g.tiles.entries[p]) in n
    {
      var dx, dy := p.x - t.pos.x, p.y - t.pos.y;
      if dx == 0 && dy == -1 { assert n[0] == Some(g.tiles.entries[p]); }
      else if dx == 1 { assert n[1] == Some(g.tiles.entries[p]); }
      else if dy == 1 { assert n[2] == Some(g.tiles.entries[p]); }
      else { assert n[3] == Some(g.tiles.entries[p]); }
    }
  }

  /** `render` draws every tile of the grid exactly once. */
  lemma RenderDrawsEachTileOnce(g: WorldGrid)
    requires Valid(g)
    ensures forall p :: p in g.tiles.entries ==> g.tiles.entries[p] in RenderOrder(g)
    ensures forall i, j :: 0 <= i < j < |RenderOrder(g)| ==> RenderOrder(g)[i] != RenderOrder(g)[j]
  {
    var r := RenderOrder(g);
    forall p | p in g.tiles.entries ensures g.tiles.entries[p] in r {
      var i :| 0 <= i < |g.tiles.order| && g.tiles.order[i] == p;
      assert r[i] == g.tiles.entries[p];
    }
  }

  /**
   * Drawing order follows creation order, not layer: a tile of a higher layer created first is
   * drawn before a lower-layer tile created after it.
   */
  lemma RenderOrderIgnoresLayer(g: WorldGrid, high: string, low: string)
    requires Valid(g) && g.tiles == PyDict.Empty()
    requires high in g.blueprints && low in g.blueprints
    requires g.blueprints[high].layer > g.blueprints[low].layer
    ensures CreateTile(g, 0, 0, high).Success?
    ensures CreateTile(CreateTile(g, 0, 0, high).value.0, 1, 0, low).Success?
    ensures var g2 := CreateTile(CreateTile(g, 0, 0, high).value.0, 1, 0, low).value.0;
      && |RenderOrder(g2)| == 2
      && RenderOrder(g2)[0].blueprint.layer > RenderOrder(g2)[1].blueprint.layer
  {
  }

  // ---------------------------------------------------------------------------------------------
  // A series of creations, and the demonstration layout

  /** The cells a series of calls addresses, in call order. */
  function Positions(calls: seq<CreateCall>): (r: seq<Pos>)
    ensures |r| == |calls|
    ensures forall i :: 0 <= i < |calls| ==> r[i] == Pos(calls[i].x, calls[i].y)
  {
    seq(|calls|, i requires 0 <= i < |calls| => Pos(calls[i].x, calls[i].y))
  }

  /** `order` extended by each cell of `ps` not yet listed: how dict insertion order grows. */
  function AppendNew(order: seq<Pos>, ps: seq<Pos>): seq<Pos>
    decreases |ps|
  {
    if |ps| == 0 then order
    else AppendNew(if ps[0] in order then order else order + [ps[0]], ps[1..])
  }

  /** A series of calls whose keys are all in the catalogue never raises. */
  lemma {:induction false} CreateAllSucceeds(g: WorldGrid, calls: seq<CreateCall>, c: TagComparison)
    requires Valid(g)
    requires forall i :: 0 <= i < |calls| ==> calls[i].key in g.blueprints
    ensures CreateAll(g, calls, c).Success?
    decreases |calls|
  {
    if |calls| > 0 {
      var g' := CreateTileWith(g, calls[0].x, calls[0].y, calls[0].key, c).value.0;
      CreateAllSucceeds(g', calls[1..], c);
    }
  }

  /** After a successful series, the grid's cells are listed in order of their first creation. */
  lemma {:induction false} CreateAllOrder(g: WorldGrid, calls: seq<CreateCall>, c: TagComparison)
    requires Valid(g)
    requires CreateAll(g, calls, c).Success?
    ensures CreateAll(g, calls, c).value.tiles.order == AppendNew(g.tiles.order, Positions(calls))
    decreases |calls|
  {
    if |calls| > 0 {
      var g' := CreateTileWith(g, calls[0].x, calls[0].y, calls[0].key, c).value.0;
      CreateAllOrder(g', calls[1..], c);
      assert Positions(calls[1..]) == Positions(calls)[1..];
    }
  }

  /** A series of calls that never addresses cell `p` leaves `p` as it was. */
  lemma {:induction false} CreateAllElsewhere(g: WorldGrid, calls: seq<CreateCall>, c: TagComparison, p: Pos)
    requires Valid(g)
    requires CreateAll(g, calls, c).Success?
    requires forall i :: 0 <= i < |calls| ==> Pos(calls[i].x, calls[i].y) != p
    ensures GetTile(CreateAll(g, calls, c).value, p.x, p.y) == GetTile(g, p.x, p.y)
    decreases |calls|
  {
    if |calls| > 0 {
      var g' := CreateTileWith(g, calls[0].x, calls[0].y, calls[0].key, c).value.0;
      CreateAllElsewhere(g', calls[1..], c, p);
    }
  }

  /** A series can be run in two parts. */
  lemma {:induction false} CreateAllConcat(g: WorldGrid, a: seq<CreateCall>, b: seq<CreateCall>, c: TagComparison)
    requires Valid(g)
    requires CreateAll(g, a, c).Success?
    ensures CreateAll(g, a + b, c) == CreateAll(CreateAll(g, a, c).value, b, c)
    decreases |a|
  {
    if |a| > 0 {
      var g' := CreateTileWith(g, a[0].x, a[0].y, a[0].key, c).value.0;
      assert (a + b)[0] == a[0];
      assert (a + b)[1..] == a[1..] + b;
      CreateAllConcat(g', a[1..], b, c);
    } else {
      assert a + b == b;
    }
  }

  lemma {:induction false} AppendNewConcat(order: seq<Pos>, a: seq<Pos>, b: seq<Pos>)
    ensures AppendNew(order, a + b) == AppendNew(AppendNew(order, a), b)
    decreases |a|
  {
    if |a| > 0 {
      assert (a + b)[0] == a[0] && (a + b)[1..] == a[1..] + b;
      AppendNewConcat(if a[0] in order then order else order + [a[0]], a[1..], b);
    } else {
      assert a + b == b;
    }
  }

  /** Cells that are new and pairwise different are all appended. */
  lemma {:induction false} AppendNewFresh(order: seq<Pos>, ps: seq<Pos>)
    requires PyDict.Distinct(order + ps)
    ensures AppendNew(order, ps) == order + ps
    decreases |ps|
  {
    if |ps| > 0 {
      assert (order + ps)[|order|] == ps[0];
      assert ps[0] !in order by {
        forall i | 0 <= i < |order| ensures order[i] != ps[0] {
          assert (order + ps)[i] == order[i];
        }
      }
      assert order + ps == (order + [ps[0]]) + ps[1..];
      AppendNewFresh(order + [ps[0]], ps[1..]);
    } else {
      assert order + ps == order;
    }
  }

  /** In the demonstration layout the only cell addressed twice is (10, 10), by calls 11 and 14. */
  lemma SetupCollision()
    ensures forall i, j :: 0 <= i < j < 20 && Positions(SetupCalls())[i] == Positions(SetupCalls())[j] ==>
      i == 11 && j == 14
    ensures Positions(SetupCalls())[11] == Positions(SetupCalls())[14] == Pos(10, 10)
  {
  }

  /**
   * The dict order after `setup_grid`: every call's cell in call order, except the second visit to
   * (10, 10), which does not add a cell; 19 cells in all.
   */
  lemma SetupOrder()
    ensures var ps := Positions(SetupCalls());
      AppendNew([], ps) == ps[..14] + ps[15..] && |AppendNew([], ps)| == 19
  {
    var ps := Positions(SetupCalls());
    SetupCollision();
    var head, tail := ps[..14], ps[15..];
    assert ps == head + [ps[14]] + tail;
    assert PyDict.Distinct([] + head) by {
      assert [] + head == head;
      assert forall i :: 0 <= i < 14 ==> head[i] == ps[i];
    }
    AppendNewFresh([], head);
    assert ps[14] in head by { assert head[11] == ps[14]; }
    assert AppendNew(head, [ps[14]]) == head;
    assert PyDict.Distinct(head + tail) by {
      forall i, j | 0 <= i < j < |head + tail| ensures (head + tail)[i] != (head + tail)[j] {
        var i' := if i < 14 then i else i + 1;
        var j' := if j < 14 then j else j + 1;
        assert (head + tail)[i] == ps[i'] && (head + tail)[j] == ps[j'];
      }
    }
    AppendNewFresh(head, tail);
    AppendNewConcat([], head + [ps[14]], tail);
    AppendNewConcat([], head, [ps[14]]);
    assert [] + head == head;
  }

  /** `CreateAllConcat` on a window `calls[i..k]` of a longer series, cut at `j`. */
  lemma CreateAllWindow(g: WorldGrid, calls: seq<CreateCall>, i: nat, j: nat, k: nat, c: TagComparison)
    requires Valid(g) && i <= j <= k <= |calls|
    requires CreateAll(g, calls[i..j], c).Success?
    ensures CreateAll(g, calls[i..k], c) == CreateAll(CreateAll(g, calls[i..j], c).value, calls[j..k], c)
  {
    assert calls[i..k] == calls[i..j] + calls[j..k];
    CreateAllConcat(g, calls[i..j], calls[j..k], c);
  }

  /** A one-call window of a series is that call. */
  lemma CreateAllSingle(g: WorldGrid, calls: seq<CreateCall>, i: nat, c: TagComparison)
    requires Valid(g) && i < |calls|
    ensures CreateTileWith(g, calls[i].x, calls[i].y, calls[i].key, c).Success? ==>
      CreateAll(g, calls[i..i + 1], c) == Success(CreateTileWith(g, calls[i].x, calls[i].y, calls[i].key, c).value.0)
  {
    assert calls[i..i + 1] == [calls[i]];
    assert calls[i..i + 1][1..] == [];
  }

  /** Every call of the layout uses the "grass" or the "dirt" blueprint. */
  lemma SetupPieceSucceeds(h: WorldGrid, i: nat, j: nat, c: TagComparison)
    requires Valid(h) && i <= j <= 20
    requires "grass" in h.blueprints && "dirt" in h.blueprints
    ensures CreateAll(h, SetupCalls()[i..j], c).Success?
  {
    CreateAllSucceeds(h, SetupCalls()[i..j], c);
  }

  /** With both keys in the catalogue the whole layout runs without raising. */
  lemma SetupLayoutSucceeds(h: WorldGrid, c: TagComparison)
    requires Valid(h) && "grass" in h.blueprints && "dirt" in h.blueprints
    ensures CreateAll(h, SetupCalls(), c).Success?
  {
    assert SetupCalls()[0..20] == SetupCalls();
    SetupPieceSucceeds(h, 0, 20, c);
  }

  /** Only calls 11 and 14 of the layout address (10, 10). */
  lemma SetupCallOnShared(j: nat)
    requires j < 20
    ensures Pos(SetupCalls()[j].x, SetupCalls()[j].y) == Pos(10, 10) <==> j == 11 || j == 14
  {
  }

  /** Calls `i..j` of the layout avoid (10, 10) when the window holds neither call 11 nor call 14. */
  lemma SetupWindowAvoidsShared(g: WorldGrid, i: nat, j: nat, c: TagComparison)
    requires Valid(g) && i <= j <= 20
    requires j <= 11 || (12 <= i && j <= 14) || 15 <= i
    requires CreateAll(g, SetupCalls()[i..j], c).Success?
    ensures GetTile(CreateAll(g, SetupCalls()[i..j], c).value, 10, 10) == GetTile(g, 10, 10)
  {
    var w := SetupCalls()[i..j];
    forall k | 0 <= k < |w| ensures Pos(w[k].x, w[k].y) != Pos(10, 10) {
      assert w[k] == SetupCalls()[i + k];
      SetupCallOnShared(i + k);
    }
    CreateAllElsewhere(g, w, c, Pos(10, 10));
  }

  /** Through call 11 the layout has put the dirt tile on (10, 10). */
  lemma SetupDirtReachesShared(g0: WorldGrid, c: TagComparison)
    requires Valid(g0) && g0.tiles == PyDict.Empty()
    requires "grass" in g0.blueprints && "dirt" in g0.blueprints
    ensures CreateAll(g0, SetupCalls()[0..12], c).Success?
    ensures GetTile(CreateAll(g0, SetupCalls()[0..12], c).value, 10, 10)
      == Some(CreateInstance(g0.blueprints["dirt"], 10, 10))
  {
    var calls := SetupCalls();
    SetupPieceSucceeds(g0, 0, 11, c);
    var a := CreateAll(g0, calls[0..11], c).value;
    SetupWindowAvoidsShared(g0, 0, 11, c);
    CreateAllSingle(a, calls, 11, c);
    CreateAllWindow(g0, calls, 0, 11, 12, c);
  }

  /**
   * Calls 12 to 14 of the layout settle the shared cell: the grass call either replaces the dirt
   * tile with a grass one or, when dirt counts as "grass" under `c`, keeps it.
   */
  lemma SetupSharedSettles(h: WorldGrid, c: TagComparison)
    requires Valid(h) && "grass" in h.blueprints && "dirt" in h.blueprints
    requires GetTile(h, 10, 10) == Some(CreateInstance(h.blueprints["dirt"], 10, 10))
    ensures CreateAll(h, SetupCalls()[12..15], c).Success?
    ensures GetTile(CreateAll(h, SetupCalls()[12..15], c).value, 10, 10)
      == Some(SharedTile(c, h.blueprints))
  {
    var calls := SetupCalls();
    SetupPieceSucceeds(h, 12, 14, c);
    var d := CreateAll(h, calls[12..14], c).value;
    SetupWindowAvoidsShared(h, 12, 14, c);
    CreateAllSingle(d, calls, 14, c);
    CreateAllWindow(h, calls, 12, 14, 15, c);
  }

  /** The shared cell (10, 10) after the layout holds `SharedTile`. */
  lemma SetupSharedCell(worldSize: int, blueprints: map<string, TileBlueprint>, c: TagComparison)
    requires "grass" in blueprints && "dirt" in blueprints
    ensures var r := CreateAll(WorldGrid(PyDict.Empty(), worldSize, blueprints), SetupCalls(), c);
      r.Success? && GetTile(r.value, 10, 10) == Some(SharedTile(c, blueprints))
  {
    var g0 := WorldGrid(PyDict.Empty(), worldSize, blueprints);
    var calls := SetupCalls();
    assert calls[0..20] == calls;
    SetupDirtReachesShared(g0, c);
    var b := CreateAll(g0, calls[0..12], c).value;
    SetupSharedSettles(b, c);
    var e := CreateAll(b, calls[12..15], c).value;
    SetupPieceSucceeds(e, 15, 20, c);
    SetupWindowAvoidsShared(e, 15, 20, c);
    CreateAllWindow(g0, calls, 0, 12, 20, c);
    CreateAllWindow(b, calls, 12, 15, 20, c);
  }

  /** The cells listed by the layout's final order are exactly those of the two lines. */
  lemma SetupOrderCells(p: Pos)
    ensures var ps := Positions(SetupCalls());
      p in ps[..14] + ps[15..] <==> OnLayout(p)
  {
    var ps := Positions(SetupCalls());
    var o := ps[..14] + ps[15..];
    if p in o {
      var i :| 0 <= i < 19 && o[i] == p;
      if i >= 14 { assert p == ps[i + 1]; } else { assert p == ps[i]; }
    }
    if p.y == 10 && 3 <= p.x <= 12 {
      var i := 2 * (p.x - 3);
      assert ps[i] == p;
      if i < 14 { assert o[i] == p; }
      else if i == 14 { assert o[11] == ps[11] == p; }
      else { assert o[i - 1] == p; }
    }
    if p.x == 10 && 5 <= p.y <= 14 {
      var i := 2 * (p.y - 5) + 1;
      assert ps[i] == p;
      if i < 14 { assert o[i] == p; } else { assert o[i - 1] == p; }
    }
  }

  /** The cells the layout addresses are exactly those of the two lines. */
  lemma SetupAddresses(p: Pos)
    ensures p in Positions(SetupCalls()) <==> OnLayout(p)
  {
    var ps := Positions(SetupCalls());
    SetupOrderCells(p);
    if p in ps {
      var i :| 0 <= i < 20 && ps[i] == p;
      if i == 14 { assert ps[i] == ps[11] == (ps[..14] + ps[15..])[11]; }
      else if i < 14 { assert (ps[..14] + ps[15..])[i] == p; }
      else { assert (ps[..14] + ps[15..])[i - 1] == p; }
    }
    if p in ps[..14] + ps[15..] {
      var i :| 0 <= i < 19 && (ps[..14] + ps[15..])[i] == p;
      if i < 14 { assert ps[i] == p; } else { assert ps[i + 1] == p; }
    }
  }

  /**
   * After a successful series the occupied cells are those occupied before together with every
   * cell a call addressed: creation never empties a cell.
   */
  lemma {:induction false} CreateAllOccupies(g: WorldGrid, calls: seq<CreateCall>, c: TagComparison)
    requires Valid(g)
    requires CreateAll(g, calls, c).Success?
    ensures forall p :: p in CreateAll(g, calls, c).value.tiles.entries <==>
      p in g.tiles.entries || p in Positions(calls)
    decreases |calls|
  {
    if |calls| > 0 {
      var g' := CreateTileWith(g, calls[0].x, calls[0].y, calls[0].key, c).value.0;
      CreateAllOccupies(g', calls[1..], c);
      var ps := Positions(calls);
      assert Positions(calls[1..]) == ps[1..];
      forall p ensures p in g'.tiles.entries <==> p in g.tiles.entries || p == ps[0] {
      }
      forall p ensures p in ps <==> p == ps[0] || p in ps[1..] {
        if p in ps {
          var i :| 0 <= i < |ps| && ps[i] == p;
          if i > 0 { assert ps[1..][i - 1] == p; }
        }
      }
    }
  }

  /**
   * A call that addresses an empty cell no other call of the series addresses leaves there a fresh
   * tile of its blueprint; in particular its key is in the catalogue.
   */
  lemma {:induction false} CreateAllOnce(g: WorldGrid, calls: seq<CreateCall>, c: TagComparison, j: nat)
    requires Valid(g) && j < |calls|
    requires CreateAll(g, calls, c).Success?
    requires Pos(calls[j].x, calls[j].y) !in g.tiles.entries
    requires forall i :: 0 <= i < |calls| && i != j ==> Pos(calls[i].x, calls[i].y) != Pos(calls[j].x, calls[j].y)
    ensures calls[j].key in g.blueprints
    ensures GetTile(CreateAll(g, calls, c).value, calls[j].x, calls[j].y)
      == Some(CreateInstance(g.blueprints[calls[j].key], calls[j].x, calls[j].y))
    decreases j
  {
    var g' := CreateTileWith(g, calls[0].x, calls[0].y, calls[0].key, c).value.0;
    var rest := calls[1..];
    if j == 0 {
      forall i | 0 <= i < |rest| ensures Pos(rest[i].x, rest[i].y) != Pos(calls[0].x, calls[0].y) {
        assert rest[i] == calls[i + 1];
      }
      CreateAllElsewhere(g', rest, c, Pos(calls[0].x, calls[0].y));
    } else {
      assert rest[j - 1] == calls[j];
      forall i | 0 <= i < |rest| && i != j - 1 ensures Pos(rest[i].x, rest[i].y) != Pos(rest[j - 1].x, rest[j - 1].y) {
        assert rest[i] == calls[i + 1];
      }
      assert Pos(calls[0].x, calls[0].y) != Pos(calls[j].x, calls[j].y);
      CreateAllOnce(g', rest, c, j - 1);
    }
  }

  /** `setup_grid` on any grid: what `SetupGridWith` promises, about the series of its calls. */
  lemma SetupGridFacts(g: WorldGrid, c: TagComparison)
    requires Valid(g)
    ensures "grass" in g.blueprints && "dirt" in g.blueprints ==> CreateAll(g, SetupCalls(), c).Success?
    ensures var r := CreateAll(g, SetupCalls(), c);
      r.Success? ==> forall p :: p in r.value.tiles.entries <==> p in g.tiles.entries || OnLayout(p)
    ensures var r := CreateAll(g, SetupCalls(), c);
      r.Success? ==> forall p :: !OnLayout(p) ==> GetTile(r.value, p.x, p.y) == GetTile(g, p.x, p.y)
  {
    SetupGridCells(g, c);
    if CreateAll(g, SetupCalls(), c).Success? {
      forall p | !OnLayout(p) ensures GetTile(CreateAll(g, SetupCalls(), c).value, p.x, p.y) == GetTile(g, p.x, p.y) {
        SetupGridElsewhere(g, c, p);
      }
    }
  }

  /** With both keys `setup_grid` succeeds, and it adds exactly the cells of the two lines. */
  lemma SetupGridCells(g: WorldGrid, c: TagComparison)
    requires Valid(g)
    ensures "grass" in g.blueprints && "dirt" in g.blueprints ==> CreateAll(g, SetupCalls(), c).Success?
    ensures var r := CreateAll(g, SetupCalls(), c);
      r.Success? ==> forall p :: p in r.value.tiles.entries <==> p in g.tiles.entries || OnLayout(p)
  {
    var calls := SetupCalls();
    if "grass" in g.blueprints && "dirt" in g.blueprints {
      assert calls[0..20] == calls;
      SetupPieceSucceeds(g, 0, 20, c);
    }
    if CreateAll(g, calls, c).Success? {
      CreateAllOccupies(g, calls, c);
      forall p ensures p in Positions(calls) <==> OnLayout(p) {
        SetupAddresses(p);
      }
    }
  }

  /** `setup_grid` leaves a cell off the two lines as it was. */
  lemma SetupGridElsewhere(g: WorldGrid, c: TagComparison, p: Pos)
    requires Valid(g) && !OnLayout(p)
    requires CreateAll(g, SetupCalls(), c).Success?
    ensures GetTile(CreateAll(g, SetupCalls(), c).value, p.x, p.y) == GetTile(g, p.x, p.y)
  {
    var calls := SetupCalls();
    SetupAddresses(p);
    forall i | 0 <= i < |calls| ensures Pos(calls[i].x, calls[i].y) != p {
      assert Positions(calls)[i] == Pos(calls[i].x, calls[i].y);
    }
    CreateAllElsewhere(g, calls, c, p);
  }

  /** No call of `calls` other than call `j` addresses call `j`'s cell. */
  ghost predicate VisitedOnce(calls: seq<CreateCall>, j: nat)
    requires j < |calls|
  {
    forall i :: 0 <= i < |calls| && i != j ==> Pos(calls[i].x, calls[i].y) != Pos(calls[j].x, calls[j].y)
  }

  /** `CreateAllOnce` about the dict entry of a call's cell, for any result `f` of the series. */
  lemma CreateAllSingleAt(g: WorldGrid, calls: seq<CreateCall>, c: TagComparison, f: WorldGrid, j: nat, x: int, y: int, key: string)
    requires Valid(g) && CreateAll(g, calls, c) == Success(f)
    requires j < |calls| && calls[j] == CreateCall(x, y, key) && VisitedOnce(calls, j)
    requires Pos(x, y) !in g.tiles.entries
    ensures key in g.blueprints
    ensures Pos(x, y) in f.tiles.entries && f.tiles.entries[Pos(x, y)] == CreateInstance(g.blueprints[key], x, y)
  {
    CreateAllOnce(g, calls, c, j);
  }

  /** Every call of the demonstration layout other than calls 11 and 14 addresses a cell no other call does. */
  lemma SetupVisitedOnce(j: nat)
    requires j < 20 && j != 11 && j != 14
    ensures VisitedOnce(SetupCalls(), j)
  {
    var calls := SetupCalls();
    SetupCollision();
    forall i | 0 <= i < 20 && i != j ensures Pos(calls[i].x, calls[i].y) != Pos(calls[j].x, calls[j].y) {
      assert Positions(calls)[i] == Pos(calls[i].x, calls[i].y);
      assert Positions(calls)[j] == Pos(calls[j].x, calls[j].y);
    }
  }

  /** The layout on an empty grid lists its 19 cells in call order, without the second visit to (10, 10). */
  lemma SetupLayoutOrder(worldSize: int, blueprints: map<string, TileBlueprint>, c: TagComparison)
    requires "grass" in blueprints && "dirt" in blueprints
    ensures var r := CreateAll(WorldGrid(PyDict.Empty(), worldSize, blueprints), SetupCalls(), c);
      && r.Success?
      && r.value.tiles.order == Positions(SetupCalls())[..14] + Positions(SetupCalls())[15..]
      && |r.value.tiles.entries| == 19
  {
    var g0 := WorldGrid(PyDict.Empty(), worldSize, blueprints);
    var calls := SetupCalls();
    SetupGridFacts(g0, c);
    CreateAllOrder(g0, calls, c);
    SetupOrder();
    PyDict.SizeIsOrderLength(CreateAll(g0, calls, c).value.tiles);
  }

  /** Cell (x, 10) of row 10, other than (10, 10), is addressed only by the grass call 2 (x - 3). */
  lemma SetupRowCall(x: int)
    requires 3 <= x <= 12 && x != 10
    ensures 0 <= 2 * (x - 3) < |SetupCalls()| && SetupCalls()[2 * (x - 3)] == CreateCall(x, 10, "grass")
    ensures VisitedOnce(SetupCalls(), 2 * (x - 3))
  {
    SetupVisitedOnce(2 * (x - 3));
  }

  /** Cell (10, y) of column 10, other than (10, 10), is addressed only by the dirt call 2 (y - 5) + 1. */
  lemma SetupColumnCall(y: int)
    requires 5 <= y <= 14 && y != 10
    ensures 0 <= 2 * (y - 5) + 1 < |SetupCalls()| && SetupCalls()[2 * (y - 5) + 1] == CreateCall(10, y, "dirt")
    ensures VisitedOnce(SetupCalls(), 2 * (y - 5) + 1)
  {
    SetupVisitedOnce(2 * (y - 5) + 1);
  }

  /** Row 10 of the layout on an empty grid, about any result `f` of the series. */
  lemma SetupRowCells(g0: WorldGrid, c: TagComparison, f: WorldGrid)
    requires g0.tiles == PyDict.Empty() && "grass" in g0.blueprints
    requires CreateAll(g0, SetupCalls(), c) == Success(f)
    ensures forall x :: 3 <= x <= 12 && x != 10 ==>
      Pos(x, 10) in f.tiles.entries && f.tiles.entries[Pos(x, 10)] == CreateInstance(g0.blueprints["grass"], x, 10)
  {
    forall x | 3 <= x <= 12 && x != 10
      ensures Pos(x, 10) in f.tiles.entries && f.tiles.entries[Pos(x, 10)] == CreateInstance(g0.blueprints["grass"], x, 10)
    {
      SetupRowCall(x);
      CreateAllSingleAt(g0, SetupCalls(), c, f, 2 * (x - 3), x, 10, "grass");
    }
  }

  /** Column 10 of the layout on an empty grid, about any result `f` of the series. */
  lemma SetupColumnCells(g0: WorldGrid, c: TagComparison, f: WorldGrid)
    requires g0.tiles == PyDict.Empty() && "dirt" in g0.blueprints
    requires CreateAll(g0, SetupCalls(), c) == Success(f)
    ensures forall y :: 5 <= y <= 14 && y != 10 ==>
      Pos(10, y) in f.tiles.entries && f.tiles.entries[Pos(10, y)] == CreateInstance(g0.blueprints["dirt"], 10, y)
  {
    forall y | 5 <= y <= 14 && y != 10
      ensures Pos(10, y) in f.tiles.entries && f.tiles.entries[Pos(10, y)] == CreateInstance(g0.blueprints["dirt"], 10, y)
    {
      SetupColumnCall(y);
      CreateAllSingleAt(g0, SetupCalls(), c, f, 2 * (y - 5) + 1, 10, y, "dirt");
    }
  }

  /** Row 10 of the layout, through `SetupGridWith`. */
  lemma SetupGridRow(worldSize: int, blueprints: map<string, TileBlueprint>, c: TagComparison)
    requires "grass" in blueprints && "dirt" in blueprints
    ensures var r := SetupGridWith(WorldGrid(PyDict.Empty(), worldSize, blueprints), c);
      r.Success? && forall x :: 3 <= x <= 12 && x != 10 ==>
        Pos(x, 10) in r.value.tiles.entries && r.value.tiles.entries[Pos(x, 10)] == CreateInstance(blueprints["grass"], x, 10)
  {
    var g0 := WorldGrid(PyDict.Empty(), worldSize, blueprints);
    SetupLayoutSucceeds(g0, c);
    SetupRowCells(g0, c, CreateAll(g0, SetupCalls(), c).value);
  }

  /** Column 10 of the layout, through `SetupGridWith`. */
  lemma SetupGridColumn(worldSize: int, blueprints: map<string, TileBlueprint>, c: TagComparison)
    requires "grass" in blueprints && "dirt" in blueprints
    ensures var r := SetupGridWith(WorldGrid(PyDict.Empty(), worldSize, blueprints), c);
      r.Success? && forall y :: 5 <= y <= 14 && y != 10 ==>
        Pos(10, y) in r.value.tiles.entries && r.value.tiles.entries[Pos(10, y)] == CreateInstance(blueprints["dirt"], 10, y)
  {
    var g0 := WorldGrid(PyDict.Empty(), worldSize, blueprints);
    SetupLayoutSucceeds(g0, c);
    SetupColumnCells(g0, c, CreateAll(g0, SetupCalls(), c).value);
  }

  /** The order, the cells and the shared cell of the layout, through `SetupGridWith`. */
  lemma SetupGridShape(worldSize: int, blueprints: map<string, TileBlueprint>, c: TagComparison)
    requires "grass" in blueprints && "dirt" in blueprints
    ensures var r := SetupGridWith(WorldGrid(PyDict.Empty(), worldSize, blueprints), c);
      && r.Success?
      && r.value.tiles.order == Positions(SetupCalls())[..14] + Positions(SetupCalls())[15..]
      && |r.value.tiles.entries| == 19
      && (forall p :: p in r.value.tiles.entries <==> OnLayout(p))
      && Pos(10, 10) in r.value.tiles.entries && r.value.tiles.entries[Pos(10, 10)] == SharedTile(c, blueprints)
  {
    SetupLayoutOrder(worldSize, blueprints, c);
    SetupGridCells(WorldGrid(PyDict.Empty(), worldSize, blueprints), c);
    SetupSharedCell(worldSize, blueprints, c);
  }

  /** What `NewWorldGrid` promises, about `setup_grid` on an empty grid. */
  lemma NewWorldGridLayout(worldSize: int, blueprints: map<string, TileBlueprint>, c: TagComparison)
    ensures var r := SetupGridWith(WorldGrid(PyDict.Empty(), worldSize, blueprints), c);
      && (r.Success? <==> "grass" in blueprints && "dirt" in blueprints)
      && (r.Failure? ==> r.error == BlueprintNotFound)
      && (r.Success? ==> Valid(r.value) && r.value.worldSize == worldSize && r.value.blueprints == blueprints)
      && (r.Success? ==> r.value.tiles.order == Positions(SetupCalls())[..14] + Positions(SetupCalls())[15..])
      && (r.Success? ==> |r.value.tiles.entries| == 19 && forall p :: p in r.value.tiles.entries <==> OnLayout(p))
      && (r.Success? ==> forall x :: 3 <= x <= 12 && x != 10 ==>
            Pos(x, 10) in r.value.tiles.entries && r.value.tiles.entries[Pos(x, 10)] == CreateInstance(blueprints["grass"], x, 10))
      && (r.Success? ==> forall y :: 5 <= y <= 14 && y != 10 ==>
            Pos(10, y) in r.value.tiles.entries && r.value.tiles.entries[Pos(10, y)] == CreateInstance(blueprints["dirt"], 10, y))
      && (r.Success? ==>
            Pos(10, 10) in r.value.tiles.entries && r.value.tiles.entries[Pos(10, 10)] == SharedTile(c, blueprints))
  {
    if "grass" in blueprints && "dirt" in blueprints {
      SetupGridShape(worldSize, blueprints, c);
      SetupGridRow(worldSize, blueprints, c);
      SetupGridColumn(worldSize, blueprints, c);
    } else {
      SetupMissingKeyFails(worldSize, blueprints, c);
    }
  }

  /** Without "grass" the first call raises; with "grass" but without "dirt" the second does. */
  lemma SetupMissingKeyFails(worldSize: int, blueprints: map<string, TileBlueprint>, c: TagComparison)
    requires "grass" !in blueprints || "dirt" !in blueprints
    ensures CreateAll(WorldGrid(PyDict.Empty(), worldSize, blueprints), SetupCalls(), c) == Failure(BlueprintNotFound)
  {
    var g0 := WorldGrid(PyDict.Empty(), worldSize, blueprints);
    var calls := SetupCalls();
    assert calls[0] == CreateCall(3, 10, "grass");
    assert calls[1..][0] == calls[1] == CreateCall(10, 5, "dirt");
    if "grass" in blueprints {
      var g1 := CreateTileWith(g0, 3, 10, "grass", c).value.0;
      assert GetTile(g1, 10, 5).None?;
    }
  }

  /**
   * As the code is written the grass call always replaces the dirt tile, so the shared cell
   * (10, 10) holds grass whatever the catalogue's types.
   */
  lemma NewWorldGridAsWritten(worldSize: int, blueprints: map<string, TileBlueprint>)
    requires "grass" in blueprints && "dirt" in blueprints
    ensures var r := NewWorldGrid(worldSize, blueprints, EnumIdentity);
      r.Success? && r.value.tiles.entries[Pos(10, 10)] == CreateInstance(blueprints["grass"], 10, 10)
  {
  }
}

=== FILE: wrappers.dfy ===
/** Failure-carrying values used in place of Python's `None` returns and raised exceptions. */
module Wrappers {

  /** `Some(v)` for a present value, `None` for Python's `None`. */
  datatype Option<+T> = None | Some(value: T)

  /** `Success(v)` for a normal return, `Failure(e)` for a raised exception `e`. */
  datatype Result<+T, +E> = Success(value: T) | Failure(error: E)
}
